=== FILE: README.md ===
# Mixergy tank client — a Dafny model

This project models the state logic of the Home Assistant integration for Mixergy
hot-water tanks. It covers the tank client in `custom_components/mixergy/tank.py`
and the sensor and switch entities built on it (`sensor.py`, `switch.py`).

The client keeps a cache of one tank's state. It fills that cache from three
sources:
- a polling refresh, which signs in, finds the tank's resources and fetches the
  measurement, settings and schedule;
- push messages arriving over a STOMP channel;
- the re-fetch that follows each successful command.

Entities read the cache and register callbacks that are run when it changes.

Structure, one module per file:

- `PyJson` (`pyjson.dfy`): decoded JSON values and the parts of Python the client
  relies on when reading them:
  - truthiness, `==` (numbers and booleans compare by value), `d[k]` raising
    `KeyError`/`TypeError`, and `k in x`;
  - ASCII `lower`/`upper`, and `int()` on a float.
- `TankState` (`tank.dfy`): the cached state as an immutable record, the settings
  keys in the order the client assigns them, and the initial state.
- `Connection` (`connection.dfy`): the push-channel lifecycle as a state machine:
  - the `_should_connect` flag, the tracked connection task
    (`_stomp_conn_task`), the superseded connection tasks still running
    untracked, the socket handle (`_stomp_conn`), the connections replaced
    while open, and pending retries;
  - the signals are `start`, `stop`, a fired retry, a tracked or superseded
    runner finishing or raising, and a disconnect of the held or of a
    replaced connection;
  - a policy says whether the client replaces a running task and an open
    handle as the code does, leaving them running and open, or as corrected,
    cancelling the task first and retiring the handle first: removing its
    listener, then disconnecting it, so that the retired connection's
    `on_disconnected` never runs.
- `Observers` (`observers.dfy`): the callback set.
- `Reconcile` (`reconcile.dfy`): the pure updates from a measurement, state,
  settings or schedule payload.
  - The client assigns fields one statement at a time. So a payload that breaks
    off keeps every assignment made before the failing read.
  - Each update returns that partial state together with the exception.
- `Push` (`push.dfy`): classifying a STOMP message and routing it to a
  reconciler.
- `Commands` (`commands.dfy`): the resource fetches, clamping, and the setters'
  PUT-then-refetch rule.
- `Holiday` (`holiday.dfy`): schedule replacement, holiday set/clear, and the
  holiday accessors.
- `Session` (`session.dfy`): sign-in, resource resolution with its guards, and
  `fetch_data`.
- `Sensors` and `Switches` (`sensors.dfy`, `switches.dfy`): the entity views.

The network is an input:
- each request's reply is a `Reply(status, body)` with an already-decoded body,
  or `TimedOut`;
- the model records which requests would be issued and in what order.

## Model

| member | source | states |
|---|---|---|
| TankState.NewTank | custom_components/mixergy/tank.py:29-81 | A new client names the tank by the upper-cased serial and ids it by the lower-cased one. It has no token and no links, charge -1, target charge 0, no schedule, no observers, and the channel flag down. |
| Connection.StartConnection | custom_components/mixergy/tank.py:204-299 | A connection task is created, and counted, only while the flag is up; otherwise nothing changes. As written, a task still running is overwritten but keeps running, so the live tasks grow by one. When superseded tasks are cancelled, exactly the new task and the earlier untracked ones are alive. |
| Connection.StartChannel | custom_components/mixergy/tank.py:197-202 | `start` raises the flag before connecting, so a task is always started. |
| Connection.StopChannel | custom_components/mixergy/tank.py:301-312 | `stop` lowers the flag, leaves the tracked task not running and closes the held handle. It starts nothing and cancels no retry. Superseded tasks and replaced connections are out of its reach: they are exactly the tasks left alive and the connections left open. |
| Connection.Step | custom_components/mixergy/tank.py:211-297 | One callback. The flag is up afterwards exactly after `start`, or when it was up and the callback is not `stop`. A task is started only by `start` or by a pending retry firing with the flag up. A tracked routine that finishes stores its handle as open or not, and a failed connect schedules one retry. A disconnect drops the handle and schedules one retry. The corrected client never adds a leaked connection. |
| Connection.Run | custom_components/mixergy/tank.py:197-312 | A run of callbacks never lowers the count of started tasks. Without `start` or a fired retry it starts none. With the flag down and no `start`, the flag stays down. |
| Connection.StepKeepsCoherent | custom_components/mixergy/tank.py:197-312 | No single signal makes the tracked task run while the flag is down. |
| Connection.RunKeepsCoherent | custom_components/mixergy/tank.py:197-312 | The same holds for the tracked task over any sequence of signals. |
| Connection.QuietWhileStopped | custom_components/mixergy/tank.py:204-209 | With the flag down, no signal except `start` creates a task or raises the flag. Retries that fire do nothing, and the number of live tasks never grows. |
| Connection.StopSilencesRetries | custom_components/mixergy/tank.py:301-312 | After `stop`, any run of signals without `start` starts no task and leaves the tracked task not running. At most the superseded tasks alive at the stop remain. |
| Connection.RaisedRunnerIsFinal | custom_components/mixergy/tank.py:211-216 | If `fetch_data` raises inside the only live connection routine and no retry is pending, no task is ever started again unless the channel disconnects or `start` is called. |
| Connection.IdleStaysIdle | custom_components/mixergy/tank.py:289-297 | A channel with no live task and no pending retry stays idle under every signal except `start` and a disconnect. |
| Connection.DisconnectSchedulesOneRetry | custom_components/mixergy/tank.py:228-231 | A disconnect drops the handle and schedules exactly one retry. That retry reconnects while the flag is up, and does nothing after an intervening `stop`. |
| Connection.StopLeavesSupersededRunner | custom_components/mixergy/tank.py:297-312 | As written, `start`, `start`, `stop` leaves one connection task alive with the flag down. When it completes its connect, the client holds an open connection it was told to drop. |
| Connection.ReplacedConnectionLeaks | custom_components/mixergy/tank.py:297-312 | As written, `start`, a connect, `start` and a second connect, then `stop`, leave the first connection open with the flag down and no task alive. The corrected client leaves no connection open after the same run. |
| Connection.CancellingLeavesNoOrphans | custom_components/mixergy/tank.py:299 | Under the corrected client, which cancels the task it replaces, no task is ever left untracked. |
| Connection.ClosingLeaksNoConnection | custom_components/mixergy/tank.py:297 | Under the corrected client, no connection is ever left open out of its reach. The corrected client retires an open handle before storing a new one: it removes that connection's listener, then disconnects it. |
| Connection.CancellingKeepsEveryTaskCoherent | custom_components/mixergy/tank.py:197-312 | Under the corrected client, a connection task of any kind is alive only while the flag is up. |
| Connection.StopEndsEveryTask | custom_components/mixergy/tank.py:301-312 | Under the corrected client, `stop` after any history ends every connection task and closes every connection, held or replaced. Until `start`, no task is alive, no connection is open and the flag stays down. Because the corrected client removes a replaced connection's listener before disconnecting it, no stale `on_disconnected` can clear the new handle. |
| Connection.StoppedStaysClosed | custom_components/mixergy/tank.py:204-231 | Under either policy, a stopped channel with no live task and no open connection keeps that state under every signal except `start`. |
| Observers.Register | custom_components/mixergy/tank.py:693-694 | The handle becomes a member and nothing else changes. The set grows by one exactly when the handle was new. |
| Observers.Remove | custom_components/mixergy/tank.py:696-697 | The handle is no longer a member and nothing else changes. Removing an absent handle is a no-op. |
| Observers.RegisterThenRemove | custom_components/mixergy/tank.py:693-697 | Registering a new handle and removing it restores the set. |
| Observers.RegisterIsIdempotent | custom_components/mixergy/tank.py:693-694 | Registering twice is registering once. |
| Reconcile.HeatFlags | custom_components/mixergy/tank.py:539-557 | Each flag is on exactly when the source names it and the immersion is on, so at most one flag is on. The target charge and holiday flag are untouched. |
| Reconcile.SourceFlags | custom_components/mixergy/tank.py:536-557 | The flags follow a case-insensitive match of `heat_source` and of `immersion == "on"`. A missing or non-string field raises and changes no flag. |
| Reconcile.TargetOf | custom_components/mixergy/tank.py:509-516 | The target charge is `target` when the key is present and 0 otherwise. |
| Reconcile.VacationOf | custom_components/mixergy/tank.py:518-523 | Holiday is detected exactly when a `source` key equals "Vacation". |
| Reconcile.DeriveHeating | custom_components/mixergy/tank.py:505-557 | Vacation means holiday mode with all three sources off. Otherwise holiday mode is off and the sources follow the payload. It fails exactly when `current` or a source field is missing. A failure leaves the source flags as they were. It never breaks the "one source, none on holiday" invariant. |
| Reconcile.ApplyMeasurement | custom_components/mixergy/tank.py:465-503 | Temperatures, PV power and clamp power (0 when absent) and the charge are copied. `charge_changed` fires, carrying the new charge, exactly when it differs from the cached charge. The embedded state is then applied. Only reading and heating change, and a payload that stops early fires nothing. |
| Reconcile.MeasurementNeverTimesOut | custom_components/mixergy/tank.py:459-463 | Applying a measurement body never raises a timeout, so the fetch's timeout handler never catches what it raises. |
| Reconcile.FirstMeasurementFires | custom_components/mixergy/tank.py:483-499 | Because the initial charge is -1, the first measurement with a non-negative charge fires `charge_changed` for the tank's id. |
| Reconcile.SameChargeIsQuiet | custom_components/mixergy/tank.py:488-499 | A second measurement with an equal charge fires nothing. |
| Reconcile.AssignSettings | custom_components/mixergy/tank.py:589-603 | Keys are assigned in order up to the first missing one. Each field takes the payload's value exactly when that key and all before it are present, and keeps its old value otherwise. Other fields are untouched. |
| Reconcile.ApplySettings | custom_components/mixergy/tank.py:584-603 | The settings update raises exactly when one of the six common keys is missing. A missing PV key is swallowed. |
| Reconcile.SettingsMerge | custom_components/mixergy/tank.py:584-603 | Per field: a common field takes the payload value when it and every earlier common key are present. A PV field also needs every common key and every earlier PV key. Otherwise the old value is kept. |
| Reconcile.SettingsMergeRequired | custom_components/mixergy/tank.py:589-595 | The common-field half of the merge: the PV pass never changes a common field. |
| Reconcile.SettingsMergePv | custom_components/mixergy/tank.py:596-603 | The PV half of the merge: when a common key is missing, every PV field keeps its old value. |
| Reconcile.SettingsWithoutPvKeepPv | custom_components/mixergy/tank.py:596-603 | A payload without `divert_exported_enabled` leaves every PV field as it was. |
| Reconcile.FullSettingsOverwriteAll | custom_components/mixergy/tank.py:589-601 | A payload with every key overwrites every field with its value and raises nothing. |
| Reconcile.PvAssignmentStopsAtFirstGap | custom_components/mixergy/tank.py:596-603 | With `divert_exported_enabled` present and `pv_charge_limit` missing, the divert flag is taken. The cut-in threshold and over-temperature keep their old values even if the payload carries them. |
| Reconcile.GapKeepsLaterPv | custom_components/mixergy/tank.py:598-603 | Past a missing `pv_charge_limit`, every later PV field keeps its old value. |
| Reconcile.ApplySchedule | custom_components/mixergy/tank.py:630-635 | The schedule is replaced wholesale and nothing else changes. |
| Push.DecodeEnvelope | custom_components/mixergy/tank.py:237-257 | A message without `type` raises `KeyError("type")`, and one without `payload` raises `KeyError("payload")`; a non-object raises `TypeError`. A "Measurement" type is a measurement of the payload, an "Event" type is decoded as an event, and any other type is an unknown message that changes nothing. Extra keys are ignored. |
| Push.DecodeEvent | custom_components/mixergy/tank.py:244-257 | An event without `event` raises `KeyError`. "Settings", "Schedule" and "State" carry their `additional` field, and raise `KeyError("additional")` without it. Any other event is an unknown event, classified without `additional`. |
| Push.DecodeEncode | custom_components/mixergy/tank.py:237-257 | Every classified message survives encoding and decoding unchanged. |
| Push.Route | custom_components/mixergy/tank.py:241-257 | A measurement is applied by the measurement reconciler. Settings take the value and exception of the settings merge, and a state takes those of the heating derivation. Each changes only its own part of the cache. A schedule replaces the schedule, other messages change nothing, and the heating invariant is preserved. |
| Push.OnMessage | custom_components/mixergy/tank.py:233-259 | A message either fails to classify and changes nothing, or is routed. A publish is scheduled exactly when no exception escaped. |
| Push.ConsumeKeepsHeatingCoherent | custom_components/mixergy/tank.py:233-259 | However the server's messages are shaped, a stream of them never leaves two heat sources on, nor one on holiday. |
| Push.ElectricStateEvent | custom_components/mixergy/tank.py:255-259 | A State event with an "Electric"/"On" current turns on the electric source alone, clears holiday mode and schedules a publish. |
| Push.ElectricImmersionHeats | custom_components/mixergy/tank.py:536-557 | An "Electric"/"On" state report, without vacation, derives the electric source alone and no holiday, whatever the previous flags were. |
| Commands.FetchMeasurement | custom_components/mixergy/tank.py:438-463 | A non-200 reply or a timeout changes nothing and raises nothing. A 200 applies the measurement, keeping the fields assigned before any failure. An exception escapes exactly when applying the body raised, and it is always a `TypeError` from the handler's own log line. |
| Commands.FetchMeasurementSwallowing | custom_components/mixergy/tank.py:438-463 | The handler as intended: the same fields and events, and nothing ever escapes. |
| Commands.MeasurementHandlersDiffer | custom_components/mixergy/tank.py:462-463 | The two handlers always keep the same fields and fire the same events. They differ exactly when a 200 body fails to apply, and then only the written one raises. |
| Commands.EmptyMeasurementRaises | custom_components/mixergy/tank.py:462-463 | A 200 reply with an empty object raises `TypeError` as written and changes nothing. The intended handler raises nothing. |
| Commands.FetchSettings | custom_components/mixergy/tank.py:559-582 | A non-200 reply or a timeout changes nothing. A 200 applies the settings, and a malformed body's exception escapes. Only settings change. |
| Commands.FetchSchedule | custom_components/mixergy/tank.py:605-628 | A 200 replaces the schedule with the body; otherwise the cache is untouched. |
| Commands.Range | custom_components/mixergy/tank.py:147-195 | The five clamped settings have non-empty ranges. |
| Commands.ClampValue | custom_components/mixergy/tank.py:161-165 | `min` then `max` puts any real number or bool into the range. A value already in range passes through as is, and one outside becomes the nearer end. A non-number raises `TypeError`. |
| Commands.ClampIdempotent | custom_components/mixergy/tank.py:147-154 | Clamping a clamped value changes nothing. |
| Commands.PlanPut | custom_components/mixergy/tank.py:117-195 | The target-charge setter PUTs `{"charge": v}` to the control URL. Any other setter PUTs exactly one key, its own, to the settings URL. A clamped setter's value lies in its range and equals the input when the input is in range. |
| Commands.Execute | custom_components/mixergy/tank.py:101-195 | A plan that fails raises its fault. A planned PUT that is rejected or times out leaves the cache untouched and raises nothing. A 200 re-fetches the owning resource: the measurement for the target charge, the settings otherwise. For the target charge, the cache and events are those of the intended handler, and an exception escapes exactly when the re-fetched body fails to apply. A setting command changes nothing but settings. The heating invariant is kept. |
| Commands.FullSettingsEcho | custom_components/mixergy/tank.py:584-603 | A settings body with every key sets each field to that key's value. |
| Commands.SettingFollowsServer | custom_components/mixergy/tank.py:122-195 | When the PUT succeeds and the re-fetched settings carry the value sent, the cached field holds that value. |
| Commands.ClampedSetterSends | custom_components/mixergy/tank.py:147-195 | For every number, a clamped setter sends the number itself, or the nearer end of the range when the number lies outside. |
| Holiday.Millis | custom_components/mixergy/tank.py:653-654 | Whole seconds times 1000: a multiple of 1000, truncated toward zero. For non-negative input it is at most the exact value and less than one second below it; for negative input, at least the exact value and less than one second above it. |
| Holiday.Edited | custom_components/mixergy/tank.py:646-671 | Setting adds a `holiday` entry and clearing removes it. Every other key is unchanged, and clearing an absent entry is a no-op. A non-object document raises the exception Python raises. |
| Holiday.HolidayMillis | custom_components/mixergy/tank.py:795-811 | When the schedule has a `holiday` object carrying the field, the result is that field's numeric value, or none if it is not a number. Any other shape gives none. |
| Holiday.HolidayStart | custom_components/mixergy/tank.py:795-802 | A `holiday` object with `departDate` gives that date's numeric value. No schedule, or no `holiday` key, gives none. |
| Holiday.HolidayEnd | custom_components/mixergy/tank.py:804-811 | A `holiday` object with `returnDate` gives that date's numeric value. No schedule, or no `holiday` key, gives none. |
| Holiday.EditedRoundTrip | custom_components/mixergy/tank.py:652-655 | After setting, the accessors read back the dates truncated to whole seconds, in milliseconds. After clearing, both read none. |
| Holiday.ClearIsIdempotent | custom_components/mixergy/tank.py:671 | Clearing twice is clearing once. |
| Holiday.SetSchedule | custom_components/mixergy/tank.py:637-640 | Only a 200 leads to the schedule being re-fetched; otherwise nothing changes. |
| Holiday.EditHolidayAsWritten | custom_components/mixergy/tank.py:642-675 | Holiday set/clear as written. Nothing but the schedule changes, and with no schedule nothing is sent. A document that cannot be edited raises and sends nothing. Otherwise the edited document is PUT to the schedule URL and the command publishes. A failed PUT leaves the edit in the cache; an accepted one leaves the re-fetched document, or the edit if the re-fetch fails. |
| Holiday.EditHoliday | custom_components/mixergy/tank.py:642-675 | Holiday set/clear with the edit made on a copy. The cached schedule is the fetched one or the server's re-fetched document, never an unconfirmed edit. The PUT carries exactly the edited document to the schedule URL. A publish happens exactly when a PUT was made. |
| Holiday.EditHolidayRoundTrip | custom_components/mixergy/tank.py:642-659 | If the server accepts the edit and returns it, the accessors read back the dates written, or none after a clear. |
| Holiday.VersionsAgreeOnSuccess | custom_components/mixergy/tank.py:642-675 | When the PUT and the re-fetch succeed, the as-written and corrected versions give the same outcome. |
| Holiday.FailedPutStillSetsHoliday | custom_components/mixergy/tank.py:646-657 | A rejected PUT still leaves the new dates in the cache as written. The corrected version keeps the fetched schedule. |
| Holiday.TimedOutHolidayExample | custom_components/mixergy/tank.py:644-657 | Concrete case: an empty schedule with every request timing out. The as-written cache shows a departure of 60000 ms, and the corrected one shows none. |
| Session.Authenticate | custom_components/mixergy/tank.py:314-360 | A cached token returns true with no request. Otherwise the root, the account and the login are requested in turn. At each step a timeout gives `None` and a wrong status gives false, ending the sign-in there. A missing link raises the lookup's exception. A 201 login stores its token and gives true; without a token it raises. Every path but success leaves the cache untouched. |
| Session.FromAccount | custom_components/mixergy/tank.py:335-346 | The account step: a timeout gives `None`, a non-200 gives false, a missing login link raises, and otherwise the login is posted to the named URL. |
| Session.SignIn | custom_components/mixergy/tank.py:348-357 | The login step: a timeout gives `None`, a non-201 gives false, and a 201 stores the body's token, or raises when it has none. |
| Session.AuthenticateIsIdempotent | custom_components/mixergy/tank.py:316-318 | After a sign-in that stored a usable token, signing in again makes no request and changes nothing. |
| Session.Entries | custom_components/mixergy/tank.py:390-397 | Iterating succeeds exactly for a list, an empty dict and an empty string. A list visits its items, an empty dict or string visits nothing, and any other value raises `TypeError`. |
| Session.FindTank | custom_components/mixergy/tank.py:394-404 | The first entry whose serial equals the configured serial is returned, and all earlier entries are well-formed non-matches. None is returned exactly when every entry is a well-formed non-match. |
| Session.SelfLink | custom_components/mixergy/tank.py:390-406 | A self link is found only in a present tank list, and it is the `_links.self.href` of an entry whose serial number is the configured one. A missing list, or a list with no matching entry, gives none. |
| Session.ApplyDetail | custom_components/mixergy/tank.py:414-429 | The detail document fills in the four links, uuid, model, firmware and PV-diverter flag, and the write succeeds exactly when all are present. The measurement URL is written first. A missing PV type raises and keeps the old flag. |
| Session.ApplyDeviceFacts | custom_components/mixergy/tank.py:423-429 | The device facts come from `id`, `tankModelCode` and `firmwareVersion`. A diverter is fitted exactly when `mixergyPvType` is not "NO_INVERTER". There is no default. |
| Session.ResolveLinks | custom_components/mixergy/tank.py:362-436 | A cached measurement URL returns `None` with no request. Otherwise the root is requested: a timeout escapes, a non-200 gives false, and a missing tanks link raises. Only links and device facts change. True means three 200 replies and the detail fully applied. |
| Session.FromTankList | custom_components/mixergy/tank.py:382-390 | The tank list is requested from the root's tanks link. A timeout escapes, a non-200 gives false, and a 200 list is searched for the tank. |
| Session.LookUpTank | custom_components/mixergy/tank.py:382-436 | With no usable matching entry, no request is made; no match at all gives false with no change. A matching entry's self link is the URL of the one further GET. |
| Session.FetchDetail | custom_components/mixergy/tank.py:406-429 | The detail GET is one request of the given URL. A timeout escapes and a non-200 gives false, both without change. A 200 applies the detail and gives true exactly when it applied in full. |
| Session.ResolveIsIdempotent | custom_components/mixergy/tank.py:366-368 | Once a usable measurement URL is stored, resolving again makes no request and changes nothing. |
| Session.PartialDetailIsNotRetried | custom_components/mixergy/tank.py:366-429 | A detail document without a PV type raises. The measurement URL is already set by then. So the next resolution returns at once, and the PV-diverter flag keeps its old value. |
| Session.SerialMatchIsExact | custom_components/mixergy/tank.py:396-400 | For every serial: an entry carrying the serial as configured is found exactly when upper-casing leaves it unchanged, and is otherwise skipped. |
| Session.LowerCaseSerialNotFound | custom_components/mixergy/tank.py:396-400 | For example, an entry carrying "ab12" is not found for a tank configured as "ab12". |
| Session.FetchData | custom_components/mixergy/tank.py:677-691 | Sign-in and resolution run first; an exception from either ends the run, and otherwise the three fetches run on the resolved tank. The refresh publishes exactly when no exception escaped. It never changes the observers, the channel or the identity, and keeps the heating invariant. With a token and links cached, the refresh is the three fetches alone. |
| Session.FetchResolved | custom_components/mixergy/tank.py:684-691 | The measurement, settings and schedule fetches run in turn. A measurement exception ends the run unpublished before the settings. A settings exception ends it unpublished before the schedule, with the settings written so far. Otherwise the schedule is fetched and the run publishes the fetched reading, the merged settings and the fetched schedule. |
| Session.CachedRefreshPublishesServerState | custom_components/mixergy/tank.py:677-691 | With a token and links cached, 200 replies, an applicable measurement and a full settings body, the refresh publishes the server's reading, each of its settings and its schedule. |
| Session.FailedSignInStillFetches | custom_components/mixergy/tank.py:677-691 | A failed sign-in does not stop the refresh: the fetches still run. A measurement body that fails to apply ends the run there, unpublished, with a `TypeError`. Otherwise, if the settings apply, the run completes and publishes. |
| Session.BadMeasurementStopsRefresh | custom_components/mixergy/tank.py:677-691 | A 200 measurement that fails to apply ends the refresh with a `TypeError` and no publish. The settings and schedule replies are never read. |
| Sensors.UniqueId | custom_components/mixergy/sensor.py:108-273 | Every id is `mixergy_`, then a name of the tank, then the sensor's suffix. The name is the upper-case serial for the charge, the two temperatures and indirect heat, and the lower-case id for the others. |
| Sensors.SuffixesDistinct | custom_components/mixergy/sensor.py:108-298 | Different sensors have different suffixes. |
| Sensors.UniqueIdsDistinct | custom_components/mixergy/sensor.py:108-298 | The nine sensors of one tank have pairwise distinct unique ids. |
| Sensors.ChargeBelow | custom_components/mixergy/sensor.py:228-252 | `charge < limit` holds exactly for a numeric charge under the limit. A non-numeric charge raises `TypeError`. |
| Sensors.NoChargeOn | custom_components/mixergy/sensor.py:228-230 | The no-charge sensor is on exactly when the charge is a number below 0.5, and raises for a non-number. |
| Sensors.LowChargeOn | custom_components/mixergy/sensor.py:250-252 | The low-charge sensor is on exactly when the charge is a number below 5, and raises for a non-number. |
| Sensors.NoChargeImpliesLowCharge | custom_components/mixergy/sensor.py:228-252 | No charge implies low charge, not low implies not empty, and the two fail together. |
| Sensors.FreshTankReportsNoCharge | custom_components/mixergy/sensor.py:228-230 | With the initial charge -1, both the no-charge and low-charge sensors are on. |
| Sensors.PowerWatts | custom_components/mixergy/sensor.py:275-277 | The power figure is 3300 or 0. |
| Sensors.PowerFollowsElectricHeat | custom_components/mixergy/sensor.py:275-277 | The power figure is 3300 exactly when the electric heat source is on. |
| Sensors.NoPowerOnHoliday | custom_components/mixergy/sensor.py:275-277 | In a coherent holiday state the power figure is 0. |
| Sensors.VacationStateStopsPower | custom_components/mixergy/sensor.py:275-277 | A state payload reporting vacation turns the power figure to 0, whatever it was. |
| Sensors.AddedToHass | custom_components/mixergy/sensor.py:68-69 | Adding an entity makes the observer set the old set plus its writer, and changes nothing else. |
| Sensors.WillRemoveFromHass | custom_components/mixergy/sensor.py:71-72 | Removing an entity makes the observer set the old set minus its writer, and changes nothing else. |
| Sensors.AddThenRemoveRestores | custom_components/mixergy/sensor.py:68-72 | Adding then removing an entity restores the tank's observer set. |
| Sensors.TwoSensorsTwoObservers | custom_components/mixergy/sensor.py:97-101 | Two different sensors added to a tank give two observers. |
| Switches.Field | custom_components/mixergy/switch.py:44-119 | Each switch drives an unclamped settings field. |
| Switches.FieldIsInjective | custom_components/mixergy/switch.py:44-119 | Different switches drive different fields. |
| Switches.IsOn | custom_components/mixergy/switch.py:44-119 | DSR shows `dsr_enabled`, frost protection shows `frost_protection_enabled`, distributed computing shows `distributed_computing_enabled`, and PV divert shows `divert_exported_enabled`. |
| Switches.Toggle | custom_components/mixergy/switch.py:48-125 | Turning on or off is one setter call with `True` or `False`. |
| Switches.ToggleSendsOnlyItsField | custom_components/mixergy/switch.py:48-52 | A toggle PUTs exactly its own key with the plain boolean to the settings URL. |
| Switches.ToggleLeavesOtherSwitches | custom_components/mixergy/switch.py:48-125 | A toggle the server rejects leaves every other switch's state unchanged. |
| Switches.SwitchFollowsServer | custom_components/mixergy/switch.py:44-52 | A toggle the server accepts and reports back shows up in `is_on`. |
| Switches.Available | custom_components/mixergy/switch.py:113-115 | The PV divert switch is available exactly when a PV diverter is fitted. The others are always available. |
| Switches.UniqueId | custom_components/mixergy/switch.py:37-107 | Every switch id is `mixergy_`, then the tank's lower-case id, then the switch's suffix. |
| Switches.UniqueIdsDistinct | custom_components/mixergy/switch.py:36-107 | The four switches of one tank have pairwise distinct unique ids. |

## Left out

- HTTP and STOMP I/O are inputs: `aiohttp` requests, `asyncio.timeout`, the WebSocket handshake and the subscription. Each reply is a status and an already-decoded body, or a timeout.
- Non-timeout transport errors (connection refused, TLS failures) are not modelled. They would escape the same way as the other uncaught exceptions.
- `json.loads` is not modelled. The `state`, `configuration` and `additional` texts and the settings and schedule bodies are taken as decoded, so malformed JSON text is not modelled.
- Time and concurrency are not modelled. `call_later` delays become pending retries that the environment fires, and each callback and update is atomic. Interleaving of polls, push messages and commands is out of scope.
- PV power: `pvEnergy / 60000` is kept unevaluated (`PvScaled`) because it is floating point.
- Holiday dates: the `datetime` conversions are not modelled. The setters take POSIX seconds, and the accessors return milliseconds before the division by 1000 and `fromtimestamp`.
- Case mapping is ASCII only; Python's Unicode `lower`/`upper` are not modelled.
- `PyEq` compares containers structurally. It does not model Python's cross-type equality inside lists and dicts, such as `[1] == [True]`.
- Publishing itself (calling each callback) is not modelled; only whether a publish is reached is. Exceptions raised by callbacks are not modelled.
- The `publish` parameter of the three fetches is not modelled, because no caller passes it.
- Logging, `device_info`, names, icons and units are not modelled.
- The plain getters are not modelled as separate members because each returns a cached field unchanged: temperatures, charge, and the indirect and electric heat sensors' `is_on`.
- `EnergySensor` is not modelled. Only its unique id suffix is part of the id table.
- The integration setup (`__init__.py`), `number.py`, `const.py`, the Lovelace card and the test script are not part of this model. Entity registration in `mixergy_entity.py` is the same as in `sensor.py` and is covered there.
- URLs are `Json` values as read from the documents. The model does not check that they are strings.
- The account and login URLs that `_authenticate` stores, and the tanks URL that `_fetch_tank_information` stores (tank.py:380), are not kept in the cache, because nothing reads them again.
- StepKeepsCoherent: coherence covers the tracked task only. As written, a superseded task keeps running after the flag goes down (see Findings). `Connection.CancellingKeepsEveryTaskCoherent` states coherence for every task under the corrected policy.
- RunKeepsCoherent: the same limit, over whole runs.
- ClampValue: numbers are reals, so a float NaN or infinity is not modelled. Python's `min` and `max` pass a NaN through unclamped.
- RaisedRunnerIsFinal: promises finality only when the raising routine is the only live connection task. A superseded task still running may schedule a retry of its own.
- IdleStaysIdle: "idle" includes having no superseded connection task alive, for the same reason.
- FetchMeasurement: does not promise that nothing escapes, because the handler's log line raises a `TypeError` (see Findings). `Commands.FetchMeasurementSwallowing` carries that promise for the intended handler.
- FailedSignInStillFetches: the completed, published refresh is promised only when the measurement also applies. A measurement that fails ends the refresh.
- The session and the setters (`Session.FetchData`, `Commands.Execute`) use the measurement fetch as written, so the refresh stops where the code stops.

Behaviour of the code worth knowing, which the model follows:

- A missing `mixergyPvType` raises `KeyError`; no PV type is assumed (tank.py:427-429).
- PV settings are assigned in a fixed order, and the first missing key ends the assignment. Later PV fields keep their old values (tank.py:596-603).
- The resolution guard returns `None` when the measurement URL is cached (tank.py:366-368). Timeouts during resolution are not caught, and neither are malformed documents there (tank.py:372-429), in sign-in (tank.py:314-360) or in the settings fetch (tank.py:559-582). So `fetch_data` can raise.
- `fetch_data` runs every step whatever the previous one returned. An exception still ends it, including the one raised by the measurement handler (tank.py:677-691).
- The setters do not publish after their re-fetch (tank.py:117-195); only the holiday commands publish (tank.py:659, tank.py:675).
- `stop` cancels only the most recent connection task. An earlier one still running survives it (tank.py:299-309; see Findings).
- `stop` disconnects only the handle held last. A connection replaced while open stays open (tank.py:297, tank.py:311-312; see Findings).
- A push message whose handling raises does not reach the publish. Missing `type`, `payload`, `event` or `additional` keys raise (tank.py:237-259).
- The holiday commands run on the cached schedule when the schedule fetch fails. They abort only when no schedule was ever cached (tank.py:644-650).
- The first measurement fires `charge_changed`, because the cached charge starts at -1 (tank.py:61, tank.py:488-497).

## Findings

| source | as written | input that shows it | evidently intended | confidence | as-written member | corrected member |
|---|---|---|---|---|---|---|
| custom_components/mixergy/tank.py:646-657 | `schedule = self._schedule` names the cached dictionary itself. `schedule["holiday"] = ...` therefore edits the cache before the PUT, and the cache keeps the edit when the PUT fails or times out. | A cached empty schedule with every request timing out, then `set_holiday_dates` with a departure of 60.5 s. `holiday_date_start` then reports 60000 ms, a holiday the server never accepted. | Edit a copy and let the cache change only through the schedule the server returns. | medium, not executed | Holiday.EditHolidayAsWritten | Holiday.EditHoliday |
| custom_components/mixergy/tank.py:462-463 | The handler for unexpected exceptions formats `e.with_traceback()` with no argument. That call needs a traceback argument, so the handler itself raises `TypeError`, and the exception it meant to log escapes `_fetch_last_measurement`. | A 200 measurement reply whose body is `{}`. The `KeyError` for `topTemperature` becomes a `TypeError`, and `fetch_data` stops before the settings, schedule and publish. | Log the exception and return, as the timeout branch does. | high, not executed | Commands.FetchMeasurement | Commands.FetchMeasurementSwallowing |
| custom_components/mixergy/tank.py:299-309 | `_start_connection` overwrites `_stomp_conn_task` without cancelling a task that is still running, and `stop` cancels only the task it holds. A superseded task runs on and, once its connect succeeds, stores an open connection. | `start`, `start` again before the first connection routine finishes, then `stop`. The first routine completes its connect, and the client holds an open connection with `_should_connect` false. | Cancel the running task before replacing it, so that `stop` ends every connection task. Retire a replaced open handle as in the next row: remove its listener, then disconnect it. | medium, not executed | Connection.StopLeavesSupersededRunner | Connection.StopEndsEveryTask |
| custom_components/mixergy/tank.py:297 | Each connection routine stores its handle in `_stomp_conn` without disconnecting the one held there, and `stop` disconnects only the handle it holds. A connection replaced while open stays open and subscribed. | `start`, a successful connect, `start` again and a second successful connect, then `stop`. The first connection is still open with `_should_connect` false and no task alive. | Retire an open handle before storing a new one: remove its listener, then disconnect it, so that its `on_disconnected` cannot clear the new handle. Then `stop` closes every connection. | medium, not executed | Connection.ReplacedConnectionLeaks | Connection.StopEndsEveryTask |

=== FILE: commands.dfy ===
/** Fetching a resource and commanding the tank. A reply from the server is
    an input: a status and an already-decoded body, or a timeout. A command
    PUTs one field to the resource that owns it and, only when the server
    answers 200, fetches that resource again. */
module Commands {
  import opened PyJson
  import opened TankState
  import opened Reconcile

  /** What a request returns: a status and the decoded body, or a timeout
      raised by the request deadline. */
  datatype Reply = Reply(status: int, body: Json) | TimedOut

  /** A request the client issues: the target URL (a cached link) and the
      JSON body. */
  datatype Request = Request(url: Json, body: Json)

  /** `_tank_request_put`: true exactly when the server answered 200; a
      timeout is caught and counts as failure. */
  predicate PutSucceeded(put: Reply)
  {
    put.Reply? && put.status == 200
  }

  /** The status test every fetch makes before reading the body. */
  predicate Fetched(reply: Reply)
  {
    reply.Reply? && reply.status == 200
  }

  // ----- fetching a resource -----

  /** `_fetch_last_measurement`: a non-200 reply or a timeout changes
      nothing. An exception raised while applying the body is caught, but
      the handler's log line calls `e.with_traceback()` without its
      argument, so the handler itself raises a TypeError; the fields
      assigned before the failure are kept, and the refresh is not
      published. */
  function FetchMeasurement(t: Tank, reply: Reply): (r: Update)
    ensures !Fetched(reply) ==> r == Update(t, [], None)
    ensures Fetched(reply) ==>
      var u := ApplyMeasurement(t, reply.body);
      && r.tank == u.tank && r.fired == u.fired
      && (r.fault.Some? <==> u.fault.Some?)
    ensures r.fault.Some? ==> r.fault == Some(TypeError)
    ensures r.tank.(reading := t.reading, heating := t.heating) == t
  {
    if !Fetched(reply) then Update(t, [], None)
    else
      var u := ApplyMeasurement(t, reply.body);
      Update(u.tank, u.fired, if u.fault.Some? then Some(TypeError) else None)
  }

  /** The handler as evidently intended: log the exception and carry on, so
      nothing escapes the fetch. */
  function FetchMeasurementSwallowing(t: Tank, reply: Reply): (r: Update)
    ensures r.fault.None?
    ensures !Fetched(reply) ==> r.tank == t && r.fired == []
    ensures Fetched(reply) ==>
      var u := ApplyMeasurement(t, reply.body);
      r.tank == u.tank && r.fired == u.fired
    ensures r.tank.(reading := t.reading, heating := t.heating) == t
  {
    if !Fetched(reply) then Update(t, [], None)
    else
      var u := ApplyMeasurement(t, reply.body);
      Update(u.tank, u.fired, None)
  }

  /** The two handlers keep the same fields and fire the same events; they
      differ exactly when applying the body raised, and then only the
      written one lets a TypeError escape. */
  lemma MeasurementHandlersDiffer(t: Tank, reply: Reply)
    ensures var w := FetchMeasurement(t, reply);
      var c := FetchMeasurementSwallowing(t, reply);
      && w.tank == c.tank && w.fired == c.fired
      && (w != c <==> Fetched(reply) && ApplyMeasurement(t, reply.body).fault.Some?)
      && (w != c ==> w.fault == Some(TypeError) && c.fault.None?)
  {
  }

  /** The defect on a concrete reply: a 200 whose body lacks
      `topTemperature` makes the written handler raise, where the intended
      one only logs. */
  lemma EmptyMeasurementRaises(t: Tank)
    ensures FetchMeasurement(t, Reply(200, JObj(map[]))).fault == Some(TypeError)
    ensures FetchMeasurementSwallowing(t, Reply(200, JObj(map[]))).fault.None?
    ensures FetchMeasurement(t, Reply(200, JObj(map[]))).tank == t
  {
  }

  /** `_fetch_settings`: only a timeout is caught, so a malformed settings
      body raises out of the fetch. */
  function FetchSettings(t: Tank, reply: Reply): (r: Step<Tank>)
    ensures !Fetched(reply) ==> r == Step(t, None)
    ensures Fetched(reply) ==>
      var s := ApplySettings(t.settings, reply.body);
      r.value.settings == s.value && r.fault == s.fault
    ensures r.value.(settings := t.settings) == t
  {
    if !Fetched(reply) then Step(t, None)
    else
      var s := ApplySettings(t.settings, reply.body);
      Step(t.(settings := s.value), s.fault)
  }

  /** `_fetch_schedule`: a 200 reply replaces the cached schedule. */
  function FetchSchedule(t: Tank, reply: Reply): (r: Tank)
    ensures r.schedule == (if Fetched(reply) then reply.body else t.schedule)
    ensures r.(schedule := t.schedule) == t
  {
    if Fetched(reply) then ApplySchedule(t, reply.body) else t
  }

  // ----- clamping -----

  /** A closed range a numeric setter forces its value into. */
  datatype Bounds = Bounds(lo: real, hi: real)

  /** The range of each clamped setting; the other settings pass their value
      through as given. */
  function Range(k: SettingKey): (r: Option<Bounds>)
    ensures r.Some? ==> r.value.lo <= r.value.hi
  {
    match k
    case CleansingTemperature => Some(Bounds(51.0, 55.0))
    case PvCutInThreshold => Some(Bounds(0.0, 500.0))
    case PvChargeLimit => Some(Bounds(0.0, 100.0))
    case PvTargetCurrent => Some(Bounds(-1.0, 0.0))
    case PvOverTemperature => Some(Bounds(45.0, 60.0))
    case _ => None
  }

  /** `value = min(value, hi); value = max(value, lo)`. Python's `min` and
      `max` return the first argument unless the second is strictly
      smaller (larger), and refuse to order a number against anything that
      is not a number or a bool. */
  function ClampValue(v: Json, b: Bounds): (r: Result<Json>)
    requires b.lo <= b.hi
    ensures r.Ok? <==> Numeric(v).Some?
    ensures r.Err? ==> r == Err(TypeError)
    ensures r.Ok? ==> Numeric(r.value).Some? && b.lo <= Numeric(r.value).value <= b.hi
    ensures r.Ok? && b.lo <= Numeric(v).value <= b.hi ==> r.value == v
    ensures r.Ok? && Numeric(v).value > b.hi ==> r.value == JNum(b.hi)
    ensures r.Ok? && Numeric(v).value < b.lo ==> r.value == JNum(b.lo)
  {
    match Numeric(v)
    case None => Err(TypeError)
    case Some(n) =>
      var upper := if b.hi < n then JNum(b.hi) else v;
      var un := if b.hi < n then b.hi else n;
      if b.lo > un then Ok(JNum(b.lo)) else Ok(upper)
  }

  /** Clamping a clamped value changes nothing. */
  lemma ClampIdempotent(v: Json, b: Bounds)
    requires b.lo <= b.hi && Numeric(v).Some?
    ensures ClampValue(ClampValue(v, b).value, b) == ClampValue(v, b)
  {
  }

  // ----- commands -----

  /** The setters: `set_target_charge` writes the control resource; every
      other setter writes one settings key. */
  datatype Command = SetTargetCharge(charge: Json) | SetSetting(key: SettingKey, value: Json)

  /** The value a command sends for its field. */
  function SentValue(c: Command): (r: Result<Json>)
  {
    match c
    case SetTargetCharge(charge) => Ok(charge)
    case SetSetting(k, v) =>
      match Range(k)
      case None => Ok(v)
      case Some(b) => ClampValue(v, b)
  }

  /** The PUT a command issues, or the exception its clamping raises first. */
  function PlanPut(t: Tank, c: Command): (r: Result<Request>)
    ensures c.SetTargetCharge? ==> r == Ok(Request(t.links.control, JObj(map["charge" := c.charge])))
    ensures c.SetSetting? && Range(c.key).None? ==>
      r == Ok(Request(t.links.settings, JObj(map[KeyName(c.key) := c.value])))
    ensures c.SetSetting? && Range(c.key).Some? ==>
      && (r.Ok? <==> Numeric(c.value).Some?)
      && (r.Ok? ==> r.value.url == t.links.settings && r.value.body.JObj?
                    && r.value.body.fields.Keys == {KeyName(c.key)})
      && (r.Ok? ==>
            var sent := r.value.body.fields[KeyName(c.key)];
            Numeric(sent).Some? && Range(c.key).value.lo <= Numeric(sent).value <= Range(c.key).value.hi)
      && (r.Ok? && Range(c.key).value.lo <= Numeric(c.value).value <= Range(c.key).value.hi ==>
            r.value.body.fields[KeyName(c.key)] == c.value)
  {
    match c
    case SetTargetCharge(charge) => Ok(Request(t.links.control, JObj(map["charge" := charge])))
    case SetSetting(k, _) =>
      match SentValue(c)
      case Err(f) => Err(f)
      case Ok(v) => Ok(Request(t.links.settings, JObj(map[KeyName(k) := v])))
  }

  /** A setter end to end: plan the PUT, send it, and on a 200 fetch the
      owning resource again. */
  function Execute(t: Tank, c: Command, put: Reply, refetch: Reply): (r: Update)
    ensures PlanPut(t, c).Err? ==> r == Update(t, [], Some(PlanPut(t, c).fault))
    ensures !PutSucceeded(put) ==> r.tank == t && r.fired == []
    ensures PlanPut(t, c).Ok? && !PutSucceeded(put) ==> r == Update(t, [], None)
    ensures PlanPut(t, c).Ok? && PutSucceeded(put) && c.SetTargetCharge? ==>
      && r == FetchMeasurement(t, refetch)
      && r.tank == FetchMeasurementSwallowing(t, refetch).tank
      && r.fired == FetchMeasurementSwallowing(t, refetch).fired
      && (r.fault.Some? <==> Fetched(refetch) && ApplyMeasurement(t, refetch.body).fault.Some?)
    ensures PlanPut(t, c).Ok? && PutSucceeded(put) && c.SetSetting? ==>
      r.tank == FetchSettings(t, refetch).value && r.fault == FetchSettings(t, refetch).fault
    ensures c.SetSetting? ==> r.tank.(settings := t.settings) == t && r.fired == []
    ensures c.SetTargetCharge? ==> r.tank.(reading := t.reading, heating := t.heating) == t
    ensures HeatingCoherent(t.heating) ==> HeatingCoherent(r.tank.heating)
  {
    match PlanPut(t, c)
    case Err(f) => Update(t, [], Some(f))
    case Ok(_) =>
      if !PutSucceeded(put) then Update(t, [], None)
      else if c.SetTargetCharge? then FetchMeasurement(t, refetch)
      else
        var s := FetchSettings(t, refetch);
        Update(s.value, [], s.fault)
  }

  /** A settings body carrying every key sets every field to its value. */
  lemma FullSettingsEcho(s: Settings, j: Json, k: SettingKey)
    requires KeysPresent(j, RequiredSettingKeys, |RequiredSettingKeys|)
    requires KeysPresent(j, PvSettingKeys, |PvSettingKeys|)
    ensures ApplySettings(s, j).fault.None?
    ensures j.JObj? && KeyName(k) in j.fields
    ensures SettingOf(ApplySettings(s, j).value, k) == j.fields[KeyName(k)]
  {
    FullSettingsOverwriteAll(s, j);
    var r := ApplySettings(s, j).value;
    if k in RequiredSettingKeys {
      var i := RequiredPosition(k);
      assert SettingOf(r, RequiredSettingKeys[i]) == j.fields[KeyName(RequiredSettingKeys[i])];
    } else {
      var i := PvPosition(k);
      assert SettingOf(r, PvSettingKeys[i]) == j.fields[KeyName(PvSettingKeys[i])];
    }
  }

  function RequiredPosition(k: SettingKey): (i: nat)
    requires k in RequiredSettingKeys
    ensures i < |RequiredSettingKeys| && RequiredSettingKeys[i] == k
  {
    match k
    case MaxTemp => 0
    case TargetTemperatureControlEnabled => 1
    case DsrEnabled => 2
    case FrostProtectionEnabled => 3
    case DistributedComputingEnabled => 4
    case CleansingTemperature => 5
  }

  function PvPosition(k: SettingKey): (i: nat)
    requires k !in RequiredSettingKeys
    ensures i < |PvSettingKeys| && PvSettingKeys[i] == k
  {
    match k
    case DivertExportedEnabled => 0
    case PvChargeLimit => 1
    case PvCutInThreshold => 2
    case PvTargetCurrent => 3
    case PvOverTemperature => 4
  }

  /** A setting command the server accepts and reflects in the settings it
      returns next leaves the cached field holding the value sent. */
  lemma SettingFollowsServer(t: Tank, k: SettingKey, v: Json, put: Reply, body: Json)
    requires PlanPut(t, SetSetting(k, v)).Ok? && PutSucceeded(put)
    requires KeysPresent(body, RequiredSettingKeys, |RequiredSettingKeys|)
    requires KeysPresent(body, PvSettingKeys, |PvSettingKeys|)
    requires KeyName(k) in body.fields && body.fields[KeyName(k)] == SentValue(SetSetting(k, v)).value
    ensures var r := Execute(t, SetSetting(k, v), put, Reply(200, body));
      r.fault.None? && SettingOf(r.tank.settings, k) == SentValue(SetSetting(k, v)).value
  {
    FullSettingsEcho(t.settings, body, k);
  }

  /** An in-range value reaches the server unchanged; an out-of-range one
      arrives as the nearer end of the range. */
  lemma ClampedSetterSends(t: Tank, k: SettingKey, n: real)
    requires Range(k).Some?
    ensures var b := Range(k).value;
      var r := PlanPut(t, SetSetting(k, JNum(n)));
      && r.Ok?
      && r.value.body == JObj(map[KeyName(k) :=
           if n < b.lo then JNum(b.lo) else if n > b.hi then JNum(b.hi) else JNum(n)])
  {
  }
}

=== FILE: connection.dfy ===
/** The push-channel lifecycle of a tank client: the `_should_connect` flag,
    the connection task created by `_start_connection`, the STOMP connection
    handle, and retries scheduled with `call_later`.

    `_stomp_conn_task` holds only the most recent connection task. A call
    to `_start_connection` while that task is still running overwrites the
    handle without cancelling the task, which then runs on untracked: it
    is counted in `orphans`. `stop()` cancels only the tracked task.

    Likewise `_stomp_conn` holds only the most recent connection handle.
    A routine that stores its handle over an open one does not disconnect
    it: the replaced connection stays open, subscribed, and out of
    `stop()`'s reach. It is counted in `leaked`.

    Every callback is atomic (the host runs them on one event loop). Time is
    not modelled: a scheduled retry is a pending count, and the environment
    decides when one fires. */
module Connection {

  /** The tracked asyncio task running the connection routine. */
  datatype Task = NoTask | Running | Cancelled | Finished

  /** The STOMP connection handle (`_stomp_conn`); `open` is false once a
      connect attempt failed or `disconnect()` was called on it. */
  datatype Socket = NoSocket | Socket(open: bool)

  datatype Channel = Channel(
    shouldConnect: bool,
    task: Task,
    socket: Socket,
    pendingRetries: nat,
    tasksStarted: nat,
    orphans: nat,          // superseded connection tasks still running
    leaked: nat)           // open connections no longer held in `_stomp_conn`

  /** What can happen to a channel. */
  datatype Signal =
    | Start                        // `start()`
    | Stop                         // `stop()`
    | RetryFires                   // a `call_later(STOMP_RETRY_TIMER, _start_connection)` comes due
    | RunnerDone(connected: bool)  // the tracked connection routine reaches its end
    | RunnerRaised                 // `fetch_data` raises inside the tracked connection routine
    | OrphanDone(connected: bool)  // a superseded connection routine reaches its end
    | OrphanRaised                 // `fetch_data` raises inside a superseded connection routine
    | Disconnected                 // the listener's `on_disconnected`
    | LeakedDisconnected           // `on_disconnected` from the listener of a leaked connection

  /** How the client replaces what it holds. As written, a new connection
      task leaves the one it replaces running untracked, and a new handle
      leaves the one it replaces open. The corrected client cancels the
      running task first, and retires an open handle before storing a new
      one: it removes that connection's listener and then disconnects it.
      With its listener gone, the retired connection never runs
      `on_disconnected`, so it cannot clear the new handle or schedule a
      retry; `Disconnected` always comes from the held connection. */
  datatype Policy = AsWritten | Corrected

  const Initial := Channel(false, NoTask, NoSocket, 0, 0, 0, 0)

  /** Connection tasks alive, tracked or not. */
  function LiveTasks(c: Channel): nat
  {
    (if c.task == Running then 1 else 0) + c.orphans
  }

  /** Open connections, held or leaked. */
  function OpenConnections(c: Channel): nat
  {
    c.leaked + (if c.socket == Socket(true) then 1 else 0)
  }

  /** The connections leaked when a routine stores a new handle. */
  function Replaced(p: Policy, c: Channel): nat
  {
    if p == AsWritten && c.socket == Socket(true) then 1 else 0
  }

  /** `_start_connection`: a connection task is created only while the
      client wants to be connected; a task it replaces keeps running as
      written, and is cancelled under the corrected policy. */
  function StartConnection(p: Policy, c: Channel): (r: Channel)
    ensures !c.shouldConnect ==> r == c
    ensures c.shouldConnect ==> r.task == Running && r.tasksStarted == c.tasksStarted + 1
    ensures c.shouldConnect && p == AsWritten ==> LiveTasks(r) == LiveTasks(c) + 1
    ensures c.shouldConnect && p == Corrected ==> LiveTasks(r) == c.orphans + 1
    ensures r.shouldConnect == c.shouldConnect && r.socket == c.socket && r.pendingRetries == c.pendingRetries
    ensures r.leaked == c.leaked
  {
    if !c.shouldConnect then c
    else
      var superseded := if c.task == Running && p == AsWritten then 1 else 0;
      c.(task := Running, tasksStarted := c.tasksStarted + 1, orphans := c.orphans + superseded)
  }

  /** `start()`: raise the flag, then try to connect. */
  function StartChannel(p: Policy, c: Channel): (r: Channel)
    ensures r.shouldConnect
    ensures r.task == Running
    ensures r.tasksStarted == c.tasksStarted + 1
  {
    StartConnection(p, c.(shouldConnect := true))
  }

  /** `stop()`: lower the flag, cancel the tracked task, disconnect the
      held handle. Superseded tasks and leaked connections are out of its
      reach: the tasks keep running and the connections stay open. */
  function StopChannel(c: Channel): (r: Channel)
    ensures !r.shouldConnect
    ensures r.task != Running
    ensures r.socket.Socket? ==> !r.socket.open
    ensures r.orphans == c.orphans && LiveTasks(r) == c.orphans
    ensures r.leaked == c.leaked && OpenConnections(r) == c.leaked
    ensures r.tasksStarted == c.tasksStarted && r.pendingRetries == c.pendingRetries
  {
    Channel(
      false,
      if c.task == Running then Cancelled else c.task,
      if c.socket.Socket? then Socket(false) else NoSocket,
      c.pendingRetries,
      c.tasksStarted,
      c.orphans,
      c.leaked)
  }

  /** One callback of the client's event loop. */
  function Step(p: Policy, c: Channel, s: Signal): (r: Channel)
    ensures r.shouldConnect == (s == Start || (s != Stop && c.shouldConnect))
    ensures r.tasksStarted == c.tasksStarted +
      (if s == Start || (s == RetryFires && c.pendingRetries > 0 && c.shouldConnect) then 1 else 0)
    ensures s.RunnerDone? && c.task == Running ==>
      && r.task == Finished && r.socket == Socket(s.connected)
      && r.pendingRetries == c.pendingRetries + (if s.connected then 0 else 1)
    ensures s == Disconnected ==> r.socket == NoSocket && r.pendingRetries == c.pendingRetries + 1
    ensures p == Corrected ==> r.leaked <= c.leaked
  {
    match s
    case Start => StartChannel(p, c)
    case Stop => StopChannel(c)
    case RetryFires =>
      if c.pendingRetries == 0 then c
      else StartConnection(p, c.(pendingRetries := c.pendingRetries - 1))
    case RunnerDone(connected) =>
      // A cancelled task never gets past its first await, so only a running
      // one finishes; a failed connect still stores the handle and
      // schedules one retry.
      if c.task != Running then c
      else c.(task := Finished, socket := Socket(connected), leaked := c.leaked + Replaced(p, c),
               pendingRetries := if connected then c.pendingRetries else c.pendingRetries + 1)
    case RunnerRaised =>
      // The exception ends the task before the connect attempt, so neither
      // a handle nor a retry is left behind.
      if c.task != Running then c else c.(task := Finished)
    case OrphanDone(connected) =>
      // A superseded routine runs the same code: it stores its handle over
      // whatever is there, and a failed connect schedules a retry.
      if c.orphans == 0 then c
      else c.(orphans := c.orphans - 1, socket := Socket(connected), leaked := c.leaked + Replaced(p, c),
               pendingRetries := if connected then c.pendingRetries else c.pendingRetries + 1)
    case OrphanRaised =>
      if c.orphans == 0 then c else c.(orphans := c.orphans - 1)
    case Disconnected =>
      c.(socket := NoSocket, pendingRetries := c.pendingRetries + 1)
    case LeakedDisconnected =>
      // Every listener holds the tank, so a leaked connection's listener
      // also drops whatever handle is held and schedules a retry.
      if c.leaked == 0 then c
      else c.(leaked := c.leaked - 1, socket := NoSocket, pendingRetries := c.pendingRetries + 1)
  }

  /** The channel after a sequence of callbacks. */
  function Run(p: Policy, c: Channel, signals: seq<Signal>): (r: Channel)
    ensures r.tasksStarted >= c.tasksStarted
    ensures (forall i | 0 <= i < |signals| :: signals[i] != Start && signals[i] != RetryFires) ==>
      r.tasksStarted == c.tasksStarted
    ensures !c.shouldConnect && (forall i | 0 <= i < |signals| :: signals[i] != Start) ==> !r.shouldConnect
    decreases |signals|
  {
    if signals == [] then c else Run(p, Step(p, c, signals[0]), signals[1..])
  }

  /** The tracked connection task runs only while the client wants one. */
  predicate Coherent(c: Channel)
  {
    c.task == Running ==> c.shouldConnect
  }

  lemma StepKeepsCoherent(p: Policy, c: Channel, s: Signal)
    requires Coherent(c)
    ensures Coherent(Step(p, c, s))
  {
  }

  lemma {:induction false} RunKeepsCoherent(p: Policy, c: Channel, signals: seq<Signal>)
    requires Coherent(c)
    ensures Coherent(Run(p, c, signals))
    decreases |signals|
  {
    if signals != [] {
      StepKeepsCoherent(p, c, signals[0]);
      RunKeepsCoherent(p, Step(p, c, signals[0]), signals[1..]);
    }
  }

  /** Once the flag is down, no signal other than `Start` creates a
      connection task: retries fired after `stop()` do nothing, and the
      number of live tasks never grows. */
  lemma {:induction false} QuietWhileStopped(p: Policy, c: Channel, signals: seq<Signal>)
    requires !c.shouldConnect
    requires forall i | 0 <= i < |signals| :: signals[i] != Start
    ensures Run(p, c, signals).tasksStarted == c.tasksStarted
    ensures !Run(p, c, signals).shouldConnect
    ensures Run(p, c, signals).task != Running || c.task == Running
    ensures Run(p, c, signals).orphans <= c.orphans
    ensures LiveTasks(Run(p, c, signals)) <= LiveTasks(c)
    decreases |signals|
  {
    if signals != [] {
      var c' := Step(p, c, signals[0]);
      assert c'.tasksStarted == c.tasksStarted && !c'.shouldConnect;
      assert c'.task == Running ==> c.task == Running;
      assert c'.orphans <= c.orphans && LiveTasks(c') <= LiveTasks(c);
      QuietWhileStopped(p, c', signals[1..]);
    }
  }

  /** `stop()` followed by any run without `start()` starts no task, leaves
      the tracked task not running, and leaves alive at most the superseded
      tasks that were alive at the stop. */
  lemma StopSilencesRetries(p: Policy, c: Channel, signals: seq<Signal>)
    requires forall i | 0 <= i < |signals| :: signals[i] != Start
    ensures Run(p, StopChannel(c), signals).tasksStarted == c.tasksStarted
    ensures Run(p, StopChannel(c), signals).task != Running
    ensures LiveTasks(Run(p, StopChannel(c), signals)) <= c.orphans
  {
    QuietWhileStopped(p, StopChannel(c), signals);
  }

  /** A channel with no live task and nothing pending stays idle under every
      signal except `Start` and a disconnect. */
  lemma {:induction false} IdleStaysIdle(p: Policy, c: Channel, signals: seq<Signal>)
    requires c.task != Running && c.orphans == 0 && c.pendingRetries == 0
    requires forall i | 0 <= i < |signals| :: signals[i] !in {Start, Disconnected, LeakedDisconnected}
    ensures Run(p, c, signals).tasksStarted == c.tasksStarted
    ensures Run(p, c, signals).task == c.task
    ensures LiveTasks(Run(p, c, signals)) == 0
    decreases |signals|
  {
    if signals != [] {
      var d := Step(p, c, signals[0]);
      assert d.task == c.task && d.orphans == 0 && d.pendingRetries == 0 && d.tasksStarted == c.tasksStarted;
      IdleStaysIdle(p, d, signals[1..]);
    }
  }

  /** A refresh that raises inside the only live connection routine leaves
      nothing scheduled: unless the connection drops or `start()` is called
      again, no further task is created. */
  lemma RaisedRunnerIsFinal(p: Policy, c: Channel, signals: seq<Signal>)
    requires c.task == Running && c.orphans == 0 && c.pendingRetries == 0
    requires forall i | 0 <= i < |signals| :: signals[i] !in {Start, Disconnected, LeakedDisconnected}
    ensures Run(p, c, [RunnerRaised] + signals).tasksStarted == c.tasksStarted
    ensures Run(p, c, [RunnerRaised] + signals).task == Finished
    ensures LiveTasks(Run(p, c, [RunnerRaised] + signals)) == 0
  {
    var d := Step(p, c, RunnerRaised);
    assert ([RunnerRaised] + signals)[1..] == signals;
    IdleStaysIdle(p, d, signals);
  }

  /** A disconnect of an open connection schedules exactly one retry, and
      that retry reconnects only if `stop()` has not intervened. */
  lemma DisconnectSchedulesOneRetry(p: Policy, c: Channel)
    requires c.socket == Socket(true)
    ensures Step(p, c, Disconnected).pendingRetries == c.pendingRetries + 1
    ensures Step(p, c, Disconnected).socket == NoSocket
    ensures c.shouldConnect ==>
      Run(p, c, [Disconnected, RetryFires]).tasksStarted == c.tasksStarted + 1
    ensures Run(p, c, [Disconnected, Stop, RetryFires]).tasksStarted == c.tasksStarted
  {
    var d := Step(p, c, Disconnected);
    assert Run(p, c, [Disconnected, RetryFires]) == Run(p, d, [RetryFires]);
    assert Run(p, d, [RetryFires]) == Step(p, d, RetryFires);
    assert Run(p, c, [Disconnected, Stop, RetryFires]) == Run(p, d, [Stop, RetryFires]);
    assert Run(p, d, [Stop, RetryFires]) == Run(p, StopChannel(d), [RetryFires]);
    assert Run(p, StopChannel(d), [RetryFires]) == Step(p, StopChannel(d), RetryFires);
  }

  // ----- superseded tasks -----

  /** The defect: calling `start()` twice and then `stop()` leaves the first
      connection task running, and when it completes its connect the client
      holds an open connection although it was told to stay disconnected. */
  lemma StopLeavesSupersededRunner()
    ensures var c := Run(AsWritten, Initial, [Start, Start, Stop]);
      && !c.shouldConnect && c.task == Cancelled && LiveTasks(c) == 1
    ensures var c := Run(AsWritten, Initial, [Start, Start, Stop, OrphanDone(true)]);
      && !c.shouldConnect && c.socket == Socket(true)
  {
    var c1 := Step(AsWritten, Initial, Start);
    var c2 := Step(AsWritten, c1, Start);
    var c3 := Step(AsWritten, c2, Stop);
    assert c2.orphans == 1;
    assert Run(AsWritten, Initial, [Start, Start, Stop]) == c3 by {
      assert [Start, Start, Stop][1..] == [Start, Stop];
      assert [Start, Stop][1..] == [Stop];
    }
    assert Run(AsWritten, Initial, [Start, Start, Stop, OrphanDone(true)]) == Step(AsWritten, c3, OrphanDone(true)) by {
      assert [Start, Start, Stop, OrphanDone(true)][1..] == [Start, Stop, OrphanDone(true)];
      assert [Start, Stop, OrphanDone(true)][1..] == [Stop, OrphanDone(true)];
      assert [Stop, OrphanDone(true)][1..] == [OrphanDone(true)];
    }
  }

  /** When each new connection task cancels the one it replaces, no task is
      ever left untracked. */
  lemma {:induction false} CancellingLeavesNoOrphans(c: Channel, signals: seq<Signal>)
    requires c.orphans == 0
    ensures Run(Corrected, c, signals).orphans == 0
    decreases |signals|
  {
    if signals != [] {
      var d := Step(Corrected, c, signals[0]);
      assert d.orphans == 0;
      CancellingLeavesNoOrphans(d, signals[1..]);
    }
  }

  /** When an open handle is disconnected before it is replaced, no
      connection is ever left open out of the client's reach. */
  lemma {:induction false} ClosingLeaksNoConnection(c: Channel, signals: seq<Signal>)
    requires c.leaked == 0
    ensures Run(Corrected, c, signals).leaked == 0
    decreases |signals|
  {
    if signals != [] {
      var d := Step(Corrected, c, signals[0]);
      assert d.leaked == 0;
      ClosingLeaksNoConnection(d, signals[1..]);
    }
  }

  /** With superseded tasks cancelled, coherence covers every task: a
      connection task is alive only while the client wants one. */
  lemma CancellingKeepsEveryTaskCoherent(c: Channel, signals: seq<Signal>)
    requires Coherent(c) && c.orphans == 0
    ensures var s := Run(Corrected, c, signals);
      LiveTasks(s) > 0 ==> s.shouldConnect
  {
    RunKeepsCoherent(Corrected, c, signals);
    CancellingLeavesNoOrphans(c, signals);
  }

  /** The second defect: a handle stored over an open one leaves that
      connection open. After `start()`, a connect, `start()` again and a
      second connect, `stop()` closes only the held connection, and as
      written one stays open with the flag down. The corrected client
      closes the first before storing the second. */
  lemma ReplacedConnectionLeaks(p: Policy)
    ensures var c := Run(p, Initial, [Start, RunnerDone(true), Start, RunnerDone(true), Stop]);
      && !c.shouldConnect && LiveTasks(c) == 0 && c.socket == Socket(false)
      && c.leaked == (if p == AsWritten then 1 else 0) && OpenConnections(c) == c.leaked
  {
    ConnectTwiceThenStopRuns(p);
    ConnectTwiceThenStopSteps(p);
  }

  /** The run of `ReplacedConnectionLeaks` is its five steps. */
  lemma ConnectTwiceThenStopRuns(p: Policy)
    ensures Run(p, Initial, [Start, RunnerDone(true), Start, RunnerDone(true), Stop])
      == Step(p, Step(p, Step(p, Step(p, Step(p, Initial, Start), RunnerDone(true)), Start), RunnerDone(true)), Stop)
  {
    assert [Start, RunnerDone(true), Start, RunnerDone(true), Stop][1..] == [RunnerDone(true), Start, RunnerDone(true), Stop];
    assert [RunnerDone(true), Start, RunnerDone(true), Stop][1..] == [Start, RunnerDone(true), Stop];
    assert [Start, RunnerDone(true), Stop][1..] == [RunnerDone(true), Stop];
    assert [RunnerDone(true), Stop][1..] == [Stop];
  }

  /** The channel after each of the five steps of `ReplacedConnectionLeaks`. */
  lemma ConnectTwiceThenStopSteps(p: Policy)
    ensures Step(p, Step(p, Step(p, Step(p, Step(p, Initial, Start), RunnerDone(true)), Start), RunnerDone(true)), Stop)
      == Channel(false, Finished, Socket(false), 0, 2, 0, if p == AsWritten then 1 else 0)
  {
    StartWhileIdle(p, Initial);
    var c1 := Channel(true, Running, NoSocket, 0, 1, 0, 0);
    ConnectStoresHandle(p, c1);
    var c2 := Channel(true, Finished, Socket(true), 0, 1, 0, 0);
    StartWhileIdle(p, c2);
    var c3 := Channel(true, Running, Socket(true), 0, 2, 0, 0);
    ConnectStoresHandle(p, c3);
  }

  /** `start()` with no task running starts exactly one. */
  lemma StartWhileIdle(p: Policy, c: Channel)
    requires c.task != Running
    ensures Step(p, c, Start) == c.(shouldConnect := true, task := Running, tasksStarted := c.tasksStarted + 1)
  {
  }

  /** A successful connect stores its handle, leaking the one it replaces
      only as written. */
  lemma ConnectStoresHandle(p: Policy, c: Channel)
    requires c.task == Running
    ensures Step(p, c, RunnerDone(true)) == c.(task := Finished, socket := Socket(true), leaked := c.leaked + Replaced(p, c))
  {
  }

  /** The corrected client's `stop()` ends every connection task and closes
      every connection: until `start()` is called again no task is alive
      and no connection is open. */
  lemma StopEndsEveryTask(c: Channel, prefix: seq<Signal>, signals: seq<Signal>)
    requires c.orphans == 0 && c.leaked == 0
    requires forall i | 0 <= i < |signals| :: signals[i] != Start
    ensures var s := Run(Corrected, StopChannel(Run(Corrected, c, prefix)), signals);
      LiveTasks(s) == 0 && OpenConnections(s) == 0 && !s.shouldConnect
  {
    var before := Run(Corrected, c, prefix);
    CancellingLeavesNoOrphans(c, prefix);
    ClosingLeaksNoConnection(c, prefix);
    StoppedStaysClosed(Corrected, StopChannel(before), signals);
  }

  /** A stopped channel with no live task and no open connection keeps it
      that way under every signal except `Start`, whatever the policy. */
  lemma {:induction false} StoppedStaysClosed(p: Policy, c: Channel, signals: seq<Signal>)
    requires !c.shouldConnect && LiveTasks(c) == 0 && OpenConnections(c) == 0
    requires forall i | 0 <= i < |signals| :: signals[i] != Start
    ensures var s := Run(p, c, signals);
      LiveTasks(s) == 0 && OpenConnections(s) == 0 && !s.shouldConnect
    decreases |signals|
  {
    if signals != [] {
      var d := Step(p, c, signals[0]);
      assert !d.shouldConnect && LiveTasks(d) == 0 && OpenConnections(d) == 0;
      StoppedStaysClosed(p, d, signals[1..]);
    }
  }
}

=== FILE: holiday.dfy ===
/** The schedule commands: replacing the schedule document, and setting or
    clearing its `holiday` entry, plus the two holiday-date accessors.
    Dates are given as POSIX seconds; the schedule stores whole
    milliseconds. */
module Holiday {
  import opened PyJson
  import opened TankState
  import opened Commands

  /** A holiday edit: set the departure and return dates, or clear them. */
  datatype ScheduleEdit = SetHoliday(departSeconds: real, returnSeconds: real) | ClearHoliday

  /** `int(d.timestamp()) * 1000`: whole seconds, then milliseconds. */
  function Millis(seconds: real): (r: int)
    ensures r % 1000 == 0
    ensures 0.0 <= seconds ==> 0 <= r
    ensures -1000.0 < seconds * 1000.0 - r as real < 1000.0
    ensures 0.0 <= seconds ==> r as real <= seconds * 1000.0 < r as real + 1000.0
    ensures seconds < 0.0 ==> r as real - 1000.0 < seconds * 1000.0 <= r as real
  {
    Trunc(seconds) * 1000
  }

  /** The `holiday` entry `set_holiday_dates` writes. */
  function HolidayEntry(departSeconds: real, returnSeconds: real): Json
  {
    JObj(map["departDate" := JNum(Millis(departSeconds) as real),
             "returnDate" := JNum(Millis(returnSeconds) as real)])
  }

  /** The document edit itself: `schedule["holiday"] = {...}` or
      `schedule.pop("holiday", None)`. Item assignment fails with a
      `TypeError` on anything but a dictionary; a list's `pop` refuses two
      arguments (`TypeError`) and other values have no `pop`
      (`AttributeError`). */
  function Edited(doc: Json, e: ScheduleEdit): (r: Result<Json>)
    ensures r.Ok? <==> doc.JObj?
    ensures r.Ok? ==> r.value.JObj?
    ensures r.Ok? ==> forall k | k != "holiday" ::
      && (k in r.value.fields <==> k in doc.fields)
      && (k in doc.fields ==> r.value.fields[k] == doc.fields[k])
    ensures r.Ok? && e.ClearHoliday? ==> "holiday" !in r.value.fields
    ensures r.Ok? && e.SetHoliday? ==> "holiday" in r.value.fields
    ensures doc.JObj? && e.ClearHoliday? && "holiday" !in doc.fields ==> r == Ok(doc)
    ensures !doc.JObj? && e.SetHoliday? ==> r == Err(TypeError)
    ensures !doc.JObj? && e.ClearHoliday? ==> r == Err(if doc.JArr? then TypeError else AttributeError)
  {
    match e
    case SetHoliday(d, b) =>
      if doc.JObj? then Ok(JObj(doc.fields["holiday" := HolidayEntry(d, b)])) else Err(TypeError)
    case ClearHoliday =>
      if doc.JObj? then
        assert "holiday" !in doc.fields ==> doc.fields - {"holiday"} == doc.fields;
        Ok(JObj(doc.fields - {"holiday"}))
      else if doc.JArr? then Err(TypeError)
      else Err(AttributeError)
  }

  /** `schedule["holiday"][field] / 1000` under the accessors' `try`: a
      missing key or a value of the wrong kind gives `None`. The value is
      returned in milliseconds, before the division and date conversion. */
  function HolidayMillis(schedule: Json, field: string): (r: Option<real>)
    ensures !schedule.JObj? ==> r.None?
    ensures schedule.JObj? && "holiday" !in schedule.fields ==> r.None?
    ensures schedule.JObj? && "holiday" in schedule.fields && !schedule.fields["holiday"].JObj? ==> r.None?
    ensures schedule.JObj? && "holiday" in schedule.fields && schedule.fields["holiday"].JObj?
            && field in schedule.fields["holiday"].fields ==>
      r == Numeric(schedule.fields["holiday"].fields[field])
    ensures r.Some? ==>
      && schedule.JObj? && "holiday" in schedule.fields
      && schedule.fields["holiday"].JObj? && field in schedule.fields["holiday"].fields
      && Numeric(schedule.fields["holiday"].fields[field]) == r
  {
    match Index(schedule, "holiday")
    case Err(_) => None
    case Ok(holiday) =>
      match Index(holiday, field)
      case Err(_) => None
      case Ok(v) => Numeric(v)
  }

  /** `holiday_date_start`. */
  function HolidayStart(schedule: Json): (r: Option<real>)
    ensures !schedule.JObj? || "holiday" !in schedule.fields ==> r.None?
    ensures schedule.JObj? && "holiday" in schedule.fields && schedule.fields["holiday"].JObj?
            && "departDate" in schedule.fields["holiday"].fields ==>
      r == Numeric(schedule.fields["holiday"].fields["departDate"])
  {
    HolidayMillis(schedule, "departDate")
  }

  /** `holiday_date_end`. */
  function HolidayEnd(schedule: Json): (r: Option<real>)
    ensures !schedule.JObj? || "holiday" !in schedule.fields ==> r.None?
    ensures schedule.JObj? && "holiday" in schedule.fields && schedule.fields["holiday"].JObj?
            && "returnDate" in schedule.fields["holiday"].fields ==>
      r == Numeric(schedule.fields["holiday"].fields["returnDate"])
  {
    HolidayMillis(schedule, "returnDate")
  }

  /** Setting the holiday and reading it back gives the dates truncated to
      whole seconds; clearing it makes both accessors give `None`. */
  lemma EditedRoundTrip(doc: Json, e: ScheduleEdit)
    requires doc.JObj?
    ensures e.SetHoliday? ==>
      && HolidayStart(Edited(doc, e).value) == Some(Millis(e.departSeconds) as real)
      && HolidayEnd(Edited(doc, e).value) == Some(Millis(e.returnSeconds) as real)
    ensures e.ClearHoliday? ==>
      HolidayStart(Edited(doc, e).value).None? && HolidayEnd(Edited(doc, e).value).None?
  {
    if e.SetHoliday? {
      var r := Edited(doc, e).value;
      var entry := HolidayEntry(e.departSeconds, e.returnSeconds);
      assert r.fields["holiday"] == entry;
    }
  }

  /** Clearing twice is clearing once. */
  lemma ClearIsIdempotent(doc: Json)
    requires doc.JObj?
    ensures Edited(Edited(doc, ClearHoliday).value, ClearHoliday) == Edited(doc, ClearHoliday)
  {
  }

  /** The result of a schedule command: the tank afterwards, the PUT it
      sent, whether it published to the observers, and an exception that
      escaped it. */
  datatype Outcome = Outcome(tank: Tank, request: Option<Request>, published: bool, fault: Option<Fault>)

  /** `set_schedule`: PUT the document; on a 200, fetch the schedule again. */
  function SetSchedule(t: Tank, value: Json, put: Reply, refetch: Reply): (r: Tank)
    ensures !PutSucceeded(put) ==> r == t
    ensures PutSucceeded(put) ==> r == FetchSchedule(t, refetch)
    ensures r.(schedule := t.schedule) == t
  {
    if PutSucceeded(put) then FetchSchedule(t, refetch) else t
  }

  /** `set_holiday_dates` / `clear_holiday_dates` as the code does it: the
      edit is made on the cached document itself (`schedule` names the same
      dictionary as the cache), so the cache holds the edit even when the
      PUT fails. */
  function EditHolidayAsWritten(t: Tank, e: ScheduleEdit, fetch: Reply, put: Reply, refetch: Reply): (r: Outcome)
    ensures r.tank.(schedule := t.schedule) == t
    ensures FetchSchedule(t, fetch).schedule.JNull? ==> r == Outcome(FetchSchedule(t, fetch), None, false, None)
    ensures r.request.Some? <==> r.published
    ensures r.request.Some? ==>
      && r.request.value.url == t.links.schedule
      && Edited(FetchSchedule(t, fetch).schedule, e).Ok?
      && r.request.value.body == Edited(FetchSchedule(t, fetch).schedule, e).value
      && r.fault.None?
    ensures !FetchSchedule(t, fetch).schedule.JNull? && Edited(FetchSchedule(t, fetch).schedule, e).Err? ==>
      r == Outcome(FetchSchedule(t, fetch), None, false, Some(Edited(FetchSchedule(t, fetch).schedule, e).fault))
    ensures r.request.Some? && !PutSucceeded(put) ==> r.tank.schedule == r.request.value.body
    ensures r.request.Some? && PutSucceeded(put) ==>
      r.tank.schedule == (if Fetched(refetch) then refetch.body else r.request.value.body)
  {
    var t1 := FetchSchedule(t, fetch);
    if t1.schedule.JNull? then Outcome(t1, None, false, None)
    else
      match Edited(t1.schedule, e)
      case Err(f) => Outcome(t1, None, false, Some(f))
      case Ok(doc) =>
        var t2 := t1.(schedule := doc);
        Outcome(SetSchedule(t2, doc, put, refetch), Some(Request(t2.links.schedule, doc)), true, None)
  }

  /** The same commands with the edit made on a copy: the cache changes only
      through a schedule the server returns. */
  function EditHoliday(t: Tank, e: ScheduleEdit, fetch: Reply, put: Reply, refetch: Reply): (r: Outcome)
    ensures r.tank.(schedule := t.schedule) == t
    ensures FetchSchedule(t, fetch).schedule.JNull? ==> r == Outcome(FetchSchedule(t, fetch), None, false, None)
    ensures !PutSucceeded(put) ==> r.tank == FetchSchedule(t, fetch)
    ensures r.tank.schedule == FetchSchedule(t, fetch).schedule
         || (PutSucceeded(put) && Fetched(refetch) && r.tank.schedule == refetch.body)
    ensures r.request.Some? <==> r.published
    ensures r.request.Some? ==>
      && r.request.value.url == t.links.schedule
      && Edited(FetchSchedule(t, fetch).schedule, e).Ok?
      && r.request.value.body == Edited(FetchSchedule(t, fetch).schedule, e).value
      && r.fault.None?
  {
    var t1 := FetchSchedule(t, fetch);
    if t1.schedule.JNull? then Outcome(t1, None, false, None)
    else
      match Edited(t1.schedule, e)
      case Err(f) => Outcome(t1, None, false, Some(f))
      case Ok(doc) => Outcome(SetSchedule(t1, doc, put, refetch), Some(Request(t1.links.schedule, doc)), true, None)
  }

  /** When the server accepts the edit and returns the document it was sent,
      the accessors read back exactly the dates written (whole seconds, in
      milliseconds), or nothing after a clear. */
  lemma EditHolidayRoundTrip(t: Tank, e: ScheduleEdit, fetch: Reply, put: Reply)
    requires PutSucceeded(put)
    requires FetchSchedule(t, fetch).schedule.JObj?
    ensures var echo := Reply(200, Edited(FetchSchedule(t, fetch).schedule, e).value);
      var r := EditHoliday(t, e, fetch, put, echo);
      && r.published
      && (e.SetHoliday? ==>
            HolidayStart(r.tank.schedule) == Some(Millis(e.departSeconds) as real)
            && HolidayEnd(r.tank.schedule) == Some(Millis(e.returnSeconds) as real))
      && (e.ClearHoliday? ==> HolidayStart(r.tank.schedule).None? && HolidayEnd(r.tank.schedule).None?)
  {
    EditedRoundTrip(FetchSchedule(t, fetch).schedule, e);
  }

  /** With the server's cooperation the two versions agree: they differ only
      when the PUT or the refetch fails. */
  lemma VersionsAgreeOnSuccess(t: Tank, e: ScheduleEdit, fetch: Reply, put: Reply, refetch: Reply)
    requires PutSucceeded(put) && Fetched(refetch)
    ensures EditHolidayAsWritten(t, e, fetch, put, refetch) == EditHoliday(t, e, fetch, put, refetch)
  {
  }

  /** The defect: when the PUT fails, the code as written still shows the
      new holiday dates, which the server never accepted. */
  lemma FailedPutStillSetsHoliday(t: Tank, d: real, b: real, fetch: Reply, put: Reply, refetch: Reply)
    requires !PutSucceeded(put)
    requires FetchSchedule(t, fetch).schedule.JObj?
    ensures HolidayStart(EditHolidayAsWritten(t, SetHoliday(d, b), fetch, put, refetch).tank.schedule)
            == Some(Millis(d) as real)
    ensures EditHoliday(t, SetHoliday(d, b), fetch, put, refetch).tank == FetchSchedule(t, fetch)
  {
    EditedRoundTrip(FetchSchedule(t, fetch).schedule, SetHoliday(d, b));
  }

  /** A concrete instance: an empty schedule, every request timing out. The
      cache ends up holding a holiday that exists only locally. */
  lemma TimedOutHolidayExample(t: Tank)
    requires t.schedule == JObj(map[])
    ensures HolidayStart(EditHolidayAsWritten(t, SetHoliday(60.5, 120.0), TimedOut, TimedOut, TimedOut).tank.schedule)
            == Some(60000.0)
    ensures HolidayStart(EditHoliday(t, SetHoliday(60.5, 120.0), TimedOut, TimedOut, TimedOut).tank.schedule).None?
  {
    FailedPutStillSetsHoliday(t, 60.5, 120.0, TimedOut, TimedOut, TimedOut);
    assert Trunc(60.5) == 60;
  }
}

=== FILE: observers.dfy ===
/** The tank's callback registry: a set of handles (each entity's state-write
    method), added with `set.add` and removed with `set.discard`. */
module Observers {

  /** An entity's `async_write_ha_state`, identified by the entity's unique id. */
  datatype Callback = Callback(entity: string)

  /** `register_callback`: adding a handle twice keeps one copy. */
  function Register(callbacks: set<Callback>, cb: Callback): (r: set<Callback>)
    ensures cb in r
    ensures forall other | other != cb :: other in r <==> other in callbacks
    ensures |r| == if cb in callbacks then |callbacks| else |callbacks| + 1
  {
    if cb in callbacks then
      assert callbacks + {cb} == callbacks;
      callbacks
    else
      assert (callbacks + {cb}) - {cb} == callbacks;
      callbacks + {cb}
  }

  /** `remove_callback`: discarding an absent handle is not an error. */
  function Remove(callbacks: set<Callback>, cb: Callback): (r: set<Callback>)
    ensures cb !in r
    ensures forall other | other != cb :: other in r <==> other in callbacks
    ensures cb !in callbacks ==> r == callbacks
  {
    callbacks - {cb}
  }

  /** Registering a new handle and removing it again restores the registry. */
  lemma RegisterThenRemove(callbacks: set<Callback>, cb: Callback)
    requires cb !in callbacks
    ensures Remove(Register(callbacks, cb), cb) == callbacks
  {
  }

  lemma RegisterIsIdempotent(callbacks: set<Callback>, cb: Callback)
    ensures Register(Register(callbacks, cb), cb) == Register(callbacks, cb)
  {
  }
}

=== FILE: push.dfy ===
/** The push-message dispatcher: a STOMP message body is classified by its
    `type` discriminator ("Measurement" or "Event") and, for events, by its
    `event` discriminator ("Settings", "Schedule" or "State"), then routed to
    the matching reconciler. Unknown discriminators change nothing. */
module Push {
  import opened PyJson
  import opened TankState
  import opened Reconcile

  /** A message body, classified. The `additional` field of an event is the
      already-decoded sub-payload. */
  datatype Envelope =
    | Measurement(payload: Json)
    | SettingsEvent(additional: Json)
    | ScheduleEvent(additional: Json)
    | StateEvent(additional: Json)
    | OtherEvent(event: Json)
    | OtherType(kind: Json)

  /** Unknown discriminators are really unknown. */
  predicate WellFormed(e: Envelope)
  {
    match e
    case OtherEvent(event) =>
      !PyEq(event, JStr("Settings")) && !PyEq(event, JStr("Schedule")) && !PyEq(event, JStr("State"))
    case OtherType(kind) => !PyEq(kind, JStr("Measurement")) && !PyEq(kind, JStr("Event"))
    case _ => true
  }

  /** The event part of an `Event` message. A known event needs its
      `additional` field; an unknown one is classified without it. */
  function DecodeEvent(payload: Json): (r: Result<Envelope>)
    ensures !payload.JObj? ==> r == Err(TypeError)
    ensures payload.JObj? && "event" !in payload.fields ==> r == Err(KeyError("event"))
    ensures payload.JObj? && "event" in payload.fields ==>
      var event := payload.fields["event"];
      var known := PyEq(event, JStr("Settings")) || PyEq(event, JStr("Schedule")) || PyEq(event, JStr("State"));
      && (!known ==> r == Ok(OtherEvent(event)))
      && (known && "additional" !in payload.fields ==> r == Err(KeyError("additional")))
      && (known && "additional" in payload.fields ==>
            var a := payload.fields["additional"];
            && (PyEq(event, JStr("Settings")) ==> r == Ok(SettingsEvent(a)))
            && (PyEq(event, JStr("Schedule")) ==> r == Ok(ScheduleEvent(a)))
            && (PyEq(event, JStr("State")) ==> r == Ok(StateEvent(a))))
  {
    match Index(payload, "event")
    case Err(f) => Err(f)
    case Ok(event) =>
      if PyEq(event, JStr("Settings")) then
        match Index(payload, "additional")
        case Err(f) => Err(f)
        case Ok(a) => Ok(SettingsEvent(a))
      else if PyEq(event, JStr("Schedule")) then
        match Index(payload, "additional")
        case Err(f) => Err(f)
        case Ok(a) => Ok(ScheduleEvent(a))
      else if PyEq(event, JStr("State")) then
        match Index(payload, "additional")
        case Err(f) => Err(f)
        case Ok(a) => Ok(StateEvent(a))
      else Ok(OtherEvent(event))
  }

  /** Read `type` and `payload` (both required), then the event part. */
  function DecodeEnvelope(msg: Json): (r: Result<Envelope>)
    ensures r.Ok? ==> WellFormed(r.value)
    ensures r.Ok? ==> msg.JObj? && "type" in msg.fields && "payload" in msg.fields
    ensures !msg.JObj? ==> r == Err(TypeError)
    ensures msg.JObj? && "type" !in msg.fields ==> r == Err(KeyError("type"))
    ensures msg.JObj? && "type" in msg.fields && "payload" !in msg.fields ==> r == Err(KeyError("payload"))
    ensures msg.JObj? && "type" in msg.fields && "payload" in msg.fields ==>
      var kind := msg.fields["type"];
      var payload := msg.fields["payload"];
      && (PyEq(kind, JStr("Measurement")) ==> r == Ok(Measurement(payload)))
      && (PyEq(kind, JStr("Event")) ==> r == DecodeEvent(payload))
      && (!PyEq(kind, JStr("Measurement")) && !PyEq(kind, JStr("Event")) ==> r == Ok(OtherType(kind)))
  {
    match Index(msg, "type")
    case Err(f) => Err(f)
    case Ok(kind) =>
      match Index(msg, "payload")
      case Err(f) => Err(f)
      case Ok(payload) =>
        if PyEq(kind, JStr("Measurement")) then Ok(Measurement(payload))
        else if PyEq(kind, JStr("Event")) then DecodeEvent(payload)
        else Ok(OtherType(kind))
  }

  /** The message a server sends for an envelope. */
  function Encode(e: Envelope): Json
  {
    match e
    case Measurement(p) => JObj(map["type" := JStr("Measurement"), "payload" := p])
    case SettingsEvent(a) => EventMessage(JStr("Settings"), a)
    case ScheduleEvent(a) => EventMessage(JStr("Schedule"), a)
    case StateEvent(a) => EventMessage(JStr("State"), a)
    case OtherEvent(event) =>
      JObj(map["type" := JStr("Event"), "payload" := JObj(map["event" := event])])
    case OtherType(kind) => JObj(map["type" := kind, "payload" := JNull])
  }

  function EventMessage(event: Json, additional: Json): Json
  {
    JObj(map["type" := JStr("Event"),
             "payload" := JObj(map["event" := event, "additional" := additional])])
  }

  /** Every well-formed envelope survives encoding and decoding. */
  lemma DecodeEncode(e: Envelope)
    requires WellFormed(e)
    ensures DecodeEnvelope(Encode(e)) == Ok(e)
  {
    match e
    case Measurement(p) =>
    case SettingsEvent(a) =>
    case ScheduleEvent(a) =>
    case StateEvent(a) =>
    case OtherEvent(event) =>
    case OtherType(kind) =>
  }

  /** The closed match from a classified message to a reconciler. */
  function Route(t: Tank, e: Envelope): (r: Update)
    ensures e.Measurement? ==> r == ApplyMeasurement(t, e.payload)
    ensures e.Measurement? ==> r.tank.(reading := t.reading, heating := t.heating) == t
    ensures e.SettingsEvent? ==>
      var s := ApplySettings(t.settings, e.additional);
      r.tank.settings == s.value && r.fault == s.fault
    ensures e.SettingsEvent? ==> r.tank.(settings := t.settings) == t && r.fired == []
    ensures e.ScheduleEvent? ==> r == Update(t.(schedule := e.additional), [], None)
    ensures e.StateEvent? ==>
      var d := DeriveHeating(t.heating, e.additional);
      r.tank.heating == d.value && r.fault == d.fault
    ensures e.StateEvent? ==> r.tank.(heating := t.heating) == t && r.fired == []
    ensures e.OtherEvent? || e.OtherType? ==> r == Update(t, [], None)
    ensures HeatingCoherent(t.heating) ==> HeatingCoherent(r.tank.heating)
  {
    match e
    case Measurement(p) => ApplyMeasurement(t, p)
    case SettingsEvent(a) =>
      var s := ApplySettings(t.settings, a);
      Update(t.(settings := s.value), [], s.fault)
    case ScheduleEvent(a) => Update(ApplySchedule(t, a), [], None)
    case StateEvent(a) =>
      var d := DeriveHeating(t.heating, a);
      Update(t.(heating := d.value), [], d.fault)
    case OtherEvent(_) => Update(t, [], None)
    case OtherType(_) => Update(t, [], None)
  }

  /** The result of handling one message: the update and whether an observer
      publish was scheduled. */
  datatype Delivery = Delivery(update: Update, published: bool)

  /** The listener's `on_message`: a publish is scheduled after every message
      handled without an exception. */
  function OnMessage(t: Tank, msg: Json): (r: Delivery)
    ensures r.published <==> r.update.fault.None?
    ensures DecodeEnvelope(msg).Err? ==> r.update == Update(t, [], Some(DecodeEnvelope(msg).fault))
    ensures DecodeEnvelope(msg).Ok? ==> r.update == Route(t, DecodeEnvelope(msg).value)
    ensures HeatingCoherent(t.heating) ==> HeatingCoherent(r.update.tank.heating)
  {
    match DecodeEnvelope(msg)
    case Err(f) => Delivery(Update(t, [], Some(f)), false)
    case Ok(e) =>
      var u := Route(t, e);
      Delivery(u, u.fault.None?)
  }

  /** The tank after a stream of messages, each handled on its own. */
  function Consume(t: Tank, msgs: seq<Json>): Tank
    decreases |msgs|
  {
    if msgs == [] then t else Consume(OnMessage(t, msgs[0]).update.tank, msgs[1..])
  }

  /** However the server's messages are shaped, the cached heating state
      never shows two heat sources, nor one while on holiday. */
  lemma {:induction false} ConsumeKeepsHeatingCoherent(t: Tank, msgs: seq<Json>)
    requires HeatingCoherent(t.heating)
    ensures HeatingCoherent(Consume(t, msgs).heating)
    decreases |msgs|
  {
    if msgs != [] {
      ConsumeKeepsHeatingCoherent(OnMessage(t, msgs[0]).update.tank, msgs[1..]);
    }
  }

  /** An electric-immersion state event switches on the electric heat source
      alone and schedules one publish. */
  lemma ElectricStateEvent(t: Tank)
    ensures var r := OnMessage(t, EventMessage(JStr("State"),
              JObj(map["current" := JObj(map["heat_source" := JStr("Electric"), "immersion" := JStr("On")])])));
      && r.published
      && r.update.tank.heating.electric
      && !r.update.tank.heating.indirect && !r.update.tank.heating.heatpump
      && !r.update.tank.heating.inHolidayMode
  {
    var state := JObj(map["current" := JObj(map["heat_source" := JStr("Electric"), "immersion" := JStr("On")])]);
    DecodeEncode(StateEvent(state));
    ElectricImmersionHeats(t.heating);
  }

  /** The heating state derived from an electric-immersion report, whatever
      it was before. */
  lemma ElectricImmersionHeats(h: Heating)
    ensures var d := DeriveHeating(h, JObj(map["current" := JObj(map["heat_source" := JStr("Electric"), "immersion" := JStr("On")])]));
      && d.fault.None?
      && d.value.electric && !d.value.indirect && !d.value.heatpump
      && !d.value.inHolidayMode
  {
    var current := map["heat_source" := JStr("Electric"), "immersion" := JStr("On")];
    var state := JObj(map["current" := JObj(current)]);
    assert HasCurrent(state) && CurrentOf(state) == current;
    assert !OnVacation(current) && ReportsHeatSource(current);
    assert Lower("Electric") == "electric" && Lower("On") == "on";
    assert SourceActive(current, "electric");
  }
}

=== FILE: pyjson.dfy ===
/** Decoded JSON values and the few pieces of Python semantics the tank client
    relies on when it reads them: truthiness, `==`, `d[key]`, `key in x` and the
    ASCII case mappings `str.lower` / `str.upper`.

    A failed read is a `Fault` naming the exception Python would raise. */
module PyJson {

  datatype Option<+T> = None | Some(value: T)

  /** The exceptions the modelled code can raise or catch. */
  datatype Fault = KeyError(key: string) | TypeError | AttributeError | TimeoutError

  datatype Result<+T> = Ok(value: T) | Err(fault: Fault)

  /** A value produced by `json.loads`; `None` is `JNull`. Integers and floats
      are both `JNum`, which is how Python compares them anyway. */
  datatype Json =
    | JNull
    | JBool(b: bool)
    | JNum(n: real)
    | JStr(s: string)
    | JArr(items: seq<Json>)
    | JObj(fields: map<string, Json>)

  /** Python's `bool(x)`. */
  predicate Truthy(j: Json)
  {
    match j
    case JNull => false
    case JBool(b) => b
    case JNum(n) => n != 0.0
    case JStr(s) => |s| > 0
    case JArr(items) => |items| > 0
    case JObj(fields) => |fields| > 0
  }

  /** The number a value stands for in Python arithmetic and ordering:
      numbers themselves, and `bool` as 0 or 1. */
  function Numeric(j: Json): (r: Option<real>)
    ensures r.Some? <==> j.JNum? || j.JBool?
  {
    match j
    case JNum(n) => Some(n)
    case JBool(b) => Some(if b then 1.0 else 0.0)
    case _ => None
  }

  /** Python's `a == b` on decoded values: numbers and booleans compare by
      value, everything else structurally. */
  predicate PyEq(a: Json, b: Json)
  {
    if Numeric(a).Some? && Numeric(b).Some? then Numeric(a).value == Numeric(b).value
    else a == b
  }

  /** Python's `j[key]` with a string key. */
  function Index(j: Json, key: string): (r: Result<Json>)
    ensures r.Ok? <==> j.JObj? && key in j.fields
    ensures r.Ok? ==> r.value == j.fields[key]
    ensures j.JObj? && key !in j.fields ==> r == Err(KeyError(key))
    ensures !j.JObj? ==> r == Err(TypeError)
  {
    match j
    case JObj(fields) => if key in fields then Ok(fields[key]) else Err(KeyError(key))
    case _ => Err(TypeError)
  }

  /** `j[p0][p1]...`, stopping at the first failing subscript. */
  function Path(j: Json, path: seq<string>): Result<Json>
    decreases |path|
  {
    if path == [] then Ok(j)
    else
      match Index(j, path[0])
      case Err(f) => Err(f)
      case Ok(v) => Path(v, path[1..])
  }

  predicate OccursAt(k: string, s: string, i: int)
  {
    0 <= i <= |s| - |k| && s[i..i + |k|] == k
  }

  predicate IsSubstring(k: string, s: string)
  {
    exists i | 0 <= i <= |s| - |k| :: OccursAt(k, s, i)
  }

  /** Python's `key in j`: dictionary keys, list elements, substrings; any
      other value is not iterable. */
  function Contains(j: Json, key: string): (r: Result<bool>)
    ensures j.JObj? ==> r == Ok(key in j.fields)
    ensures r.Err? <==> !(j.JObj? || j.JArr? || j.JStr?)
  {
    match j
    case JObj(fields) => Ok(key in fields)
    case JArr(items) => Ok(JStr(key) in items)
    case JStr(s) => Ok(IsSubstring(key, s))
    case _ => Err(TypeError)
  }

  /** `.lower()` / `.upper()` on a value: only strings have them. */
  function LowerOf(j: Json): (r: Result<string>)
    ensures r.Ok? <==> j.JStr?
    ensures r.Ok? ==> r.value == Lower(j.s)
  {
    if j.JStr? then Ok(Lower(j.s)) else Err(AttributeError)
  }

  function LowerChar(c: char): char
  {
    if 'A' <= c <= 'Z' then (c as int + 32) as char else c
  }

  function UpperChar(c: char): char
  {
    if 'a' <= c <= 'z' then (c as int - 32) as char else c
  }

  /** ASCII case mappings; both keep the length of the string. */
  function Lower(s: string): (r: string)
    ensures |r| == |s|
    ensures forall i | 0 <= i < |s| :: r[i] == LowerChar(s[i])
  {
    seq(|s|, i requires 0 <= i < |s| => LowerChar(s[i]))
  }

  function Upper(s: string): (r: string)
    ensures |r| == |s|
    ensures forall i | 0 <= i < |s| :: r[i] == UpperChar(s[i])
  {
    seq(|s|, i requires 0 <= i < |s| => UpperChar(s[i]))
  }

  /** Python's `int(x)` on a float: truncation toward zero. */
  function Trunc(x: real): (r: int)
    ensures 0.0 <= x ==> r as real <= x < r as real + 1.0
    ensures x < 0.0 ==> r as real - 1.0 < x <= r as real
  {
    if x >= 0.0 then x.Floor else -((-x).Floor)
  }
}

=== FILE: reconcile.dfy ===
/** The state reconciler: pure updates of the cached tank state from a
    measurement, heating-state, settings or schedule payload.

    The client assigns cached fields one statement at a time, so a payload
    missing a key (or of the wrong shape) leaves every assignment made before
    the failing read in place; each update returns that partial state
    together with the exception. */
module Reconcile {
  import opened PyJson
  import opened TankState

  /** A value computed by a run of assignments, and the exception that cut
      the run short, if any. */
  datatype Step<T> = Step(value: T, fault: Option<Fault>)

  /** The `charge_changed` notification fired on the host's event bus under
      the name `mixergy_event`. */
  datatype ChargeChanged = ChargeChanged(deviceId: string, charge: Json)

  datatype Update = Update(tank: Tank, fired: seq<ChargeChanged>, fault: Option<Fault>)

  // ----- heating state -----

  /** The decoded state payload carries a `current` object. */
  predicate HasCurrent(state: Json)
  {
    state.JObj? && "current" in state.fields && state.fields["current"].JObj?
  }

  function CurrentOf(state: Json): map<string, Json>
    requires HasCurrent(state)
  {
    state.fields["current"].fields
  }

  predicate OnVacation(current: map<string, Json>)
  {
    "source" in current && current["source"] == JStr("Vacation")
  }

  /** Both heat-source fields are present and are strings. */
  predicate ReportsHeatSource(current: map<string, Json>)
  {
    && "heat_source" in current && current["heat_source"].JStr?
    && "immersion" in current && current["immersion"].JStr?
  }

  /** The payload says heat source `name` is active: its `heat_source` is
      `name` and its `immersion` is "on", both ignoring case. */
  predicate SourceActive(current: map<string, Json>, name: string)
    requires ReportsHeatSource(current)
  {
    Lower(current["heat_source"].s) == name && Lower(current["immersion"].s) == "on"
  }

  /** The three heat-source flags for a lower-cased source name. */
  function HeatFlags(h: Heating, source: string, on: bool): (r: Heating)
    ensures r.indirect == (source == "indirect" && on)
    ensures r.electric == (source == "electric" && on)
    ensures r.heatpump == (source == "heatpump" && on)
    ensures AtMostOneHeatSource(r)
    ensures r.targetCharge == h.targetCharge && r.inHolidayMode == h.inHolidayMode
  {
    if source == "indirect" then h.(electric := false, heatpump := false, indirect := on)
    else if source == "electric" then h.(electric := on, indirect := false, heatpump := false)
    else if source == "heatpump" then h.(heatpump := on, indirect := false, electric := false)
    else h.(indirect := false, electric := false, heatpump := false)
  }

  /** The non-holiday branch: read `heat_source` and `immersion`, lower-case
      both, and set the matching flag. */
  function SourceFlags(h: Heating, current: Json): (r: Step<Heating>)
    ensures r.fault.None? <==> current.JObj? && ReportsHeatSource(current.fields)
    ensures r.fault.None? ==>
      && r.value.indirect == SourceActive(current.fields, "indirect")
      && r.value.electric == SourceActive(current.fields, "electric")
      && r.value.heatpump == SourceActive(current.fields, "heatpump")
      && AtMostOneHeatSource(r.value)
    ensures r.fault.Some? ==> r.value == h
    ensures r.value.targetCharge == h.targetCharge && r.value.inHolidayMode == h.inHolidayMode
  {
    match Index(current, "heat_source")
    case Err(f) => Step(h, Some(f))
    case Ok(hs) =>
      match LowerOf(hs)
      case Err(f) => Step(h, Some(f))
      case Ok(source) =>
        match Index(current, "immersion")
        case Err(f) => Step(h, Some(f))
        case Ok(im) =>
          match LowerOf(im)
          case Err(f) => Step(h, Some(f))
          case Ok(immersion) => Step(HeatFlags(h, source, immersion == "on"), None)
  }

  /** `target` when the key is there, 0 otherwise. */
  function TargetOf(current: Json): (r: Result<Json>)
    ensures current.JObj? ==> r == Ok(if "target" in current.fields then current.fields["target"] else JNum(0.0))
  {
    match Contains(current, "target")
    case Err(f) => Err(f)
    case Ok(hasTarget) => if hasTarget then Index(current, "target") else Ok(JNum(0.0))
  }

  /** `vacation` as the client computes it: `source == "Vacation"` when the
      key is there, false otherwise. */
  function VacationOf(current: Json): (r: Result<bool>)
    ensures current.JObj? ==> r == Ok(OnVacation(current.fields))
  {
    match Contains(current, "source")
    case Err(f) => Err(f)
    case Ok(hasSource) =>
      if !hasSource then Ok(false)
      else
        match Index(current, "source")
        case Err(f) => Err(f)
        case Ok(source) => Ok(PyEq(source, JStr("Vacation")))
  }

  /** `_update_from_new_state`: the heating fields from a decoded state
      payload. */
  function DeriveHeating(h: Heating, state: Json): (r: Step<Heating>)
    ensures HasCurrent(state) ==>
      r.value.targetCharge == (var c := CurrentOf(state); if "target" in c then c["target"] else JNum(0.0))
    ensures HasCurrent(state) && OnVacation(CurrentOf(state)) ==>
      && r.fault.None?
      && r.value.inHolidayMode
      && !r.value.indirect && !r.value.electric && !r.value.heatpump
    ensures HasCurrent(state) && !OnVacation(CurrentOf(state)) && ReportsHeatSource(CurrentOf(state)) ==>
      && r.fault.None?
      && !r.value.inHolidayMode
      && r.value.indirect == SourceActive(CurrentOf(state), "indirect")
      && r.value.electric == SourceActive(CurrentOf(state), "electric")
      && r.value.heatpump == SourceActive(CurrentOf(state), "heatpump")
    ensures r.fault.None? <==>
      HasCurrent(state) && (OnVacation(CurrentOf(state)) || ReportsHeatSource(CurrentOf(state)))
    ensures !(state.JObj? && "current" in state.fields) ==> r.value == h
    ensures r.fault.Some? ==>
      r.value.indirect == h.indirect && r.value.electric == h.electric && r.value.heatpump == h.heatpump
    ensures r.fault.None? ==> HeatingCoherent(r.value)
    ensures HeatingCoherent(h) ==> HeatingCoherent(r.value)
  {
    match Index(state, "current")
    case Err(f) => Step(h, Some(f))
    case Ok(current) =>
      match TargetOf(current)
      case Err(f) => Step(h, Some(f))
      case Ok(target) =>
        var h1 := h.(targetCharge := target);
        match VacationOf(current)
        case Err(f) => Step(h1, Some(f))
        case Ok(vacation) =>
          if vacation then
            Step(h1.(inHolidayMode := true, electric := false, heatpump := false, indirect := false), None)
          else
            SourceFlags(h1.(inHolidayMode := false), current)
  }

  // ----- measurement -----

  /** `_pv_power`: `pvEnergy / 60000`, which needs a number (or a bool). */
  function PvPowerOf(pvEnergy: Json): Result<PvPower>
  {
    match Numeric(pvEnergy)
    case Some(n) => Ok(PvScaled(n))
    case None => Err(TypeError)
  }

  /** The measurement payload gets as far as the charge comparison. */
  predicate ReachesCharge(m: Json)
  {
    && m.JObj?
    && "topTemperature" in m.fields
    && "bottomTemperature" in m.fields
    && ("pvEnergy" in m.fields ==> Numeric(m.fields["pvEnergy"]).Some?)
    && "charge" in m.fields
  }

  /** `_update_from_latest_measurement`: temperatures, PV and clamp power,
      the charge (announcing a change), then the embedded heating state. */
  function ApplyMeasurement(t: Tank, m: Json): (r: Update)
    ensures r.tank.(reading := t.reading, heating := t.heating) == t
    ensures |r.fired| <= 1
    ensures r.fired != [] ==>
      r.fired == [ChargeChanged(t.id, r.tank.reading.charge)] && !PyEq(r.tank.reading.charge, t.reading.charge)
    ensures ReachesCharge(m) ==>
      && r.tank.reading.charge == m.fields["charge"]
      && (r.fired == [] <==> PyEq(m.fields["charge"], t.reading.charge))
      && r.tank.reading.hotWaterTemperature == m.fields["topTemperature"]
      && r.tank.reading.coldestWaterTemperature == m.fields["bottomTemperature"]
      && r.tank.reading.clampPower == (if "clampPower" in m.fields then m.fields["clampPower"] else JNum(0.0))
      && r.tank.reading.pvPower ==
           (if "pvEnergy" in m.fields then PvScaled(Numeric(m.fields["pvEnergy"]).value) else PvZero)
    ensures !ReachesCharge(m) ==>
      r.fault.Some? && r.fired == [] && r.tank.reading.charge == t.reading.charge && r.tank.heating == t.heating
    ensures ReachesCharge(m) && "state" in m.fields ==>
      var d := DeriveHeating(t.heating, m.fields["state"]);
      r.tank.heating == d.value && r.fault == d.fault
    ensures ReachesCharge(m) && "state" !in m.fields ==>
      r.fault == Some(KeyError("state")) && r.tank.heating == t.heating
    ensures HeatingCoherent(t.heating) ==> HeatingCoherent(r.tank.heating)
  {
    match Index(m, "topTemperature")
    case Err(f) => Update(t, [], Some(f))
    case Ok(top) =>
      var t1 := t.(reading := t.reading.(hotWaterTemperature := top));
      match Index(m, "bottomTemperature")
      case Err(f) => Update(t1, [], Some(f))
      case Ok(bottom) =>
        var t2 := t1.(reading := t1.reading.(coldestWaterTemperature := bottom));
        match (if "pvEnergy" in m.fields then PvPowerOf(m.fields["pvEnergy"]) else Ok(PvZero))
        case Err(f) => Update(t2, [], Some(f))
        case Ok(pv) =>
          var clamp := if "clampPower" in m.fields then m.fields["clampPower"] else JNum(0.0);
          var t3 := t2.(reading := t2.reading.(pvPower := pv, clampPower := clamp));
          match Index(m, "charge")
          case Err(f) => Update(t3, [], Some(f))
          case Ok(charge) =>
            var fired := if PyEq(charge, t3.reading.charge) then [] else [ChargeChanged(t3.id, charge)];
            var t4 := t3.(reading := t3.reading.(charge := charge));
            match Index(m, "state")
            case Err(f) => Update(t4, fired, Some(f))
            case Ok(state) =>
              var d := DeriveHeating(t4.heating, state);
              Update(t4.(heating := d.value), fired, d.fault)
  }

  /** Applying a measurement makes no request, so what it raises is never a
      timeout: the fetch's `except TimeoutError` cannot catch it. */
  lemma MeasurementNeverTimesOut(t: Tank, m: Json)
    ensures ApplyMeasurement(t, m).fault != Some(TimeoutError)
  {
  }

  /** The cached charge starts at -1, so the first measurement carrying a
      real charge (any non-negative number) announces a change. */
  lemma FirstMeasurementFires(serial: string, m: Json)
    requires ReachesCharge(m)
    requires Numeric(m.fields["charge"]).Some? && Numeric(m.fields["charge"]).value >= 0.0
    ensures ApplyMeasurement(NewTank(serial), m).fired == [ChargeChanged(Lower(serial), m.fields["charge"])]
  {
  }

  /** A second measurement with the same charge announces nothing. */
  lemma SameChargeIsQuiet(t: Tank, m: Json, m2: Json)
    requires ReachesCharge(m) && ReachesCharge(m2)
    requires PyEq(m2.fields["charge"], m.fields["charge"])
    ensures ApplyMeasurement(ApplyMeasurement(t, m).tank, m2).fired == []
  {
  }

  // ----- settings -----

  /** The first `n` of `keys` are all present in the payload. */
  predicate KeysPresent(j: Json, keys: seq<SettingKey>, n: nat)
    requires n <= |keys|
  {
    n == 0 || (j.JObj? && forall i | 0 <= i < n :: KeyName(keys[i]) in j.fields)
  }

  predicate Distinct(keys: seq<SettingKey>)
  {
    forall i, k | 0 <= i < k < |keys| :: keys[i] != keys[k]
  }

  /** `s[k0] = j[k0]; s[k1] = j[k1]; ...` stopping at the first missing key. */
  function AssignSettings(s: Settings, j: Json, keys: seq<SettingKey>): (r: Step<Settings>)
    requires Distinct(keys)
    ensures forall i | 0 <= i < |keys| ::
      SettingOf(r.value, keys[i]) ==
        (if KeysPresent(j, keys, i + 1) then j.fields[KeyName(keys[i])] else SettingOf(s, keys[i]))
    ensures forall k | k !in keys :: SettingOf(r.value, k) == SettingOf(s, k)
    ensures r.fault.None? <==> KeysPresent(j, keys, |keys|)
    ensures !j.JObj? && keys != [] ==> r == Step(s, Some(TypeError))
    decreases |keys|
  {
    if keys == [] then Step(s, None)
    else
      match Index(j, KeyName(keys[0]))
      case Err(f) => Step(s, Some(f))
      case Ok(v) =>
        var rest := AssignSettings(WithSetting(s, keys[0], v), j, keys[1..]);
        assert forall i | 1 <= i < |keys| :: keys[i] == keys[1..][i - 1];
        assert forall i | 1 <= i <= |keys| :: KeysPresent(j, keys, i) <==> KeysPresent(j, keys[1..], i - 1);
        rest
  }

  lemma SettingKeyOrder()
    ensures Distinct(RequiredSettingKeys) && Distinct(PvSettingKeys)
    ensures |RequiredSettingKeys| == 6 && |PvSettingKeys| == 5
    ensures forall i | 0 <= i < |RequiredSettingKeys| :: RequiredSettingKeys[i] !in PvSettingKeys
    ensures forall i | 0 <= i < |PvSettingKeys| :: PvSettingKeys[i] !in RequiredSettingKeys
  {
  }

  /** `_update_from_new_settings`: the six common keys are required; the PV
      keys are assigned in order until the first missing one, and that
      `KeyError` is swallowed. */
  function ApplySettings(s: Settings, j: Json): (r: Step<Settings>)
    ensures r.fault.None? <==> KeysPresent(j, RequiredSettingKeys, |RequiredSettingKeys|)
    ensures !j.JObj? ==> r == Step(s, Some(TypeError))
  {
    SettingKeyOrder();
    var required := AssignSettings(s, j, RequiredSettingKeys);
    if required.fault.Some? then required
    else Step(AssignSettings(required.value, j, PvSettingKeys).value, None)
  }

  /** What a settings payload does to each cached settings field: a common
      field takes the payload's value when it and every common key before
      it are present; a PV field does so only when all common keys and
      every PV key up to it are present, and otherwise keeps its old value. */
  lemma SettingsMerge(s: Settings, j: Json)
    ensures forall i | 0 <= i < |RequiredSettingKeys| ::
      SettingOf(ApplySettings(s, j).value, RequiredSettingKeys[i]) ==
        (if KeysPresent(j, RequiredSettingKeys, i + 1) then j.fields[KeyName(RequiredSettingKeys[i])]
         else SettingOf(s, RequiredSettingKeys[i]))
    ensures forall i | 0 <= i < |PvSettingKeys| ::
      SettingOf(ApplySettings(s, j).value, PvSettingKeys[i]) ==
        (if KeysPresent(j, RequiredSettingKeys, |RequiredSettingKeys|) && KeysPresent(j, PvSettingKeys, i + 1)
         then j.fields[KeyName(PvSettingKeys[i])] else SettingOf(s, PvSettingKeys[i]))
  {
    SettingsMergeRequired(s, j);
    SettingsMergePv(s, j);
  }

  /** The common half of `SettingsMerge`: the PV pass never touches a
      common field. */
  lemma SettingsMergeRequired(s: Settings, j: Json)
    ensures forall i | 0 <= i < |RequiredSettingKeys| ::
      SettingOf(ApplySettings(s, j).value, RequiredSettingKeys[i]) ==
        (if KeysPresent(j, RequiredSettingKeys, i + 1) then j.fields[KeyName(RequiredSettingKeys[i])]
         else SettingOf(s, RequiredSettingKeys[i]))
  {
    SettingKeyOrder();
    var required := AssignSettings(s, j, RequiredSettingKeys);
    if required.fault.None? {
      var r := ApplySettings(s, j);
      var pv := AssignSettings(required.value, j, PvSettingKeys);
      assert r.value == pv.value;
      forall i | 0 <= i < |RequiredSettingKeys|
        ensures SettingOf(r.value, RequiredSettingKeys[i]) == SettingOf(required.value, RequiredSettingKeys[i])
      {
        assert RequiredSettingKeys[i] !in PvSettingKeys;
      }
    }
  }

  /** The PV half of `SettingsMerge`: a fault in the common pass leaves
      every PV field as it was. */
  lemma SettingsMergePv(s: Settings, j: Json)
    ensures forall i | 0 <= i < |PvSettingKeys| ::
      SettingOf(ApplySettings(s, j).value, PvSettingKeys[i]) ==
        (if KeysPresent(j, RequiredSettingKeys, |RequiredSettingKeys|) && KeysPresent(j, PvSettingKeys, i + 1)
         then j.fields[KeyName(PvSettingKeys[i])] else SettingOf(s, PvSettingKeys[i]))
  {
    SettingKeyOrder();
    var r := ApplySettings(s, j);
    var required := AssignSettings(s, j, RequiredSettingKeys);
    if required.fault.Some? {
      assert r == required;
      forall i | 0 <= i < |PvSettingKeys|
        ensures SettingOf(r.value, PvSettingKeys[i]) == SettingOf(s, PvSettingKeys[i])
      {
        assert PvSettingKeys[i] !in RequiredSettingKeys;
      }
    }
  }

  /** Older firmware sends no PV keys: every PV field keeps its value. */
  lemma SettingsWithoutPvKeepPv(s: Settings, j: Json)
    requires j.JObj? && KeyName(DivertExportedEnabled) !in j.fields
    ensures forall k | k in PvSettingKeys :: SettingOf(ApplySettings(s, j).value, k) == SettingOf(s, k)
  {
    SettingsMerge(s, j);
    assert PvSettingKeys[0] == DivertExportedEnabled;
  }

  /** A payload with every key overwrites every settings field. */
  lemma FullSettingsOverwriteAll(s: Settings, j: Json)
    requires KeysPresent(j, RequiredSettingKeys, |RequiredSettingKeys|)
    requires KeysPresent(j, PvSettingKeys, |PvSettingKeys|)
    ensures ApplySettings(s, j).fault.None?
    ensures forall i | 0 <= i < |RequiredSettingKeys| ::
      SettingOf(ApplySettings(s, j).value, RequiredSettingKeys[i]) == j.fields[KeyName(RequiredSettingKeys[i])]
    ensures forall i | 0 <= i < |PvSettingKeys| ::
      SettingOf(ApplySettings(s, j).value, PvSettingKeys[i]) == j.fields[KeyName(PvSettingKeys[i])]
  {
    SettingsMerge(s, j);
    forall n | 0 <= n <= |RequiredSettingKeys| ensures KeysPresent(j, RequiredSettingKeys, n) {
      PrefixPresent(j, RequiredSettingKeys, n);
    }
    forall n | 0 <= n <= |PvSettingKeys| ensures KeysPresent(j, PvSettingKeys, n) {
      PrefixPresent(j, PvSettingKeys, n);
    }
  }

  /** One PV field after a settings payload (an instance of `SettingsMerge`). */
  lemma PvMergeAt(s: Settings, j: Json, i: nat)
    requires i < |PvSettingKeys|
    ensures SettingOf(ApplySettings(s, j).value, PvSettingKeys[i]) ==
        (if KeysPresent(j, RequiredSettingKeys, |RequiredSettingKeys|) && KeysPresent(j, PvSettingKeys, i + 1)
         then j.fields[KeyName(PvSettingKeys[i])] else SettingOf(s, PvSettingKeys[i]))
  {
    SettingsMerge(s, j);
  }

  /** The PV keys are not applied one by one "if present": a payload with
      every common key and `divert_exported_enabled` but no
      `pv_charge_limit` takes the divert flag and ignores the later PV keys,
      `pv_cut_in_threshold` included. */
  lemma PvAssignmentStopsAtFirstGap(s: Settings, j: Json)
    requires KeysPresent(j, RequiredSettingKeys, |RequiredSettingKeys|)
    requires KeyName(DivertExportedEnabled) in j.fields && KeyName(PvChargeLimit) !in j.fields
    ensures SettingOf(ApplySettings(s, j).value, DivertExportedEnabled) == j.fields[KeyName(DivertExportedEnabled)]
    ensures SettingOf(ApplySettings(s, j).value, PvCutInThreshold) == SettingOf(s, PvCutInThreshold)
    ensures SettingOf(ApplySettings(s, j).value, PvOverTemperature) == SettingOf(s, PvOverTemperature)
  {
    PvMergeAt(s, j, 0);
    GapKeepsLaterPv(s, j, 2);
    GapKeepsLaterPv(s, j, 4);
  }

  /** Past a missing `pv_charge_limit`, the later PV fields keep their old values. */
  lemma GapKeepsLaterPv(s: Settings, j: Json, i: nat)
    requires KeysPresent(j, RequiredSettingKeys, |RequiredSettingKeys|)
    requires KeyName(PvChargeLimit) !in j.fields
    requires 2 <= i < |PvSettingKeys|
    ensures SettingOf(ApplySettings(s, j).value, PvSettingKeys[i]) == SettingOf(s, PvSettingKeys[i])
  {
    PvMergeAt(s, j, i);
    assert KeyName(PvSettingKeys[1]) !in j.fields;
  }

  lemma PrefixPresent(j: Json, keys: seq<SettingKey>, n: nat)
    requires n <= |keys| && KeysPresent(j, keys, |keys|)
    ensures KeysPresent(j, keys, n)
  {
  }

  // ----- schedule -----

  /** `_update_from_new_schedule`: the schedule document is replaced as a
      whole and nothing else changes. */
  function ApplySchedule(t: Tank, schedule: Json): (r: Tank)
    ensures r.schedule == schedule
    ensures r.(schedule := t.schedule) == t
  {
    t.(schedule := schedule)
  }
}

=== FILE: sensors.dfy ===
/** The sensor entities over one tank: their unique ids, the two
    charge-threshold binary sensors, the electric power figure, and the
    observer registration every entity performs. */
module Sensors {
  import opened PyJson
  import opened TankState
  import opened Reconcile
  import Observers

  datatype SensorKind =
    | Charge | HotWaterTemperature | ColdestWaterTemperature | IndirectHeat
    | ElectricHeat | NoCharge | LowCharge | Power | Energy

  /** Four sensors name the tank by its upper-case serial number, the rest
      by its lower-case id. */
  predicate KeyedBySerial(k: SensorKind)
  {
    k in {Charge, HotWaterTemperature, ColdestWaterTemperature, IndirectHeat}
  }

  /** The text after the tank's name in a unique id (the electric heat
      sensor's id is spelled `electic`). */
  function Suffix(k: SensorKind): string
  {
    match k
    case Charge => "_charge"
    case HotWaterTemperature => "_hot_water_temperature"
    case ColdestWaterTemperature => "_coldest_water_temperature"
    case IndirectHeat => "_indirect_heat"
    case ElectricHeat => "_electic_heat"
    case NoCharge => "_no_charge"
    case LowCharge => "_low_charge"
    case Power => "_power"
    case Energy => "_energy"
  }

  /** `unique_id`: `mixergy_{name}{suffix}`. */
  function UniqueId(k: SensorKind, t: Tank): (r: string)
    ensures |r| == 8 + |t.serialNumber| + |Suffix(k)| || |r| == 8 + |t.id| + |Suffix(k)|
    ensures r[..8] == "mixergy_"
    ensures r[|r| - |Suffix(k)|..] == Suffix(k)
    ensures r[8..|r| - |Suffix(k)|] == if KeyedBySerial(k) then t.serialNumber else t.id
  {
    "mixergy_" + (if KeyedBySerial(k) then t.serialNumber else t.id) + Suffix(k)
  }

  lemma SuffixesDistinct(a: SensorKind, b: SensorKind)
    requires a != b
    ensures Suffix(a) != Suffix(b)
  {
  }

  /** The nine sensors of one tank have nine different unique ids: both
      names of the tank have the same length, so two equal ids would need
      equal suffixes. */
  lemma UniqueIdsDistinct(t: Tank, a: SensorKind, b: SensorKind)
    requires IdentityCoherent(t)
    requires a != b
    ensures UniqueId(a, t) != UniqueId(b, t)
  {
    SuffixesDistinct(a, b);
  }

  /** `charge < limit`: the cached charge compares as a number; any other
      value makes the comparison raise. */
  function ChargeBelow(charge: Json, limit: real): (r: Result<bool>)
    ensures r.Ok? <==> Numeric(charge).Some?
    ensures r.Err? ==> r == Err(TypeError)
    ensures r == Ok(true) <==> Numeric(charge).Some? && Numeric(charge).value < limit
  {
    match Numeric(charge)
    case Some(n) => Ok(n < limit)
    case None => Err(TypeError)
  }

  /** `NoChargeSensor.is_on`: the charge is below half a percent. */
  function NoChargeOn(t: Tank): (r: Result<bool>)
    ensures r.Ok? <==> Numeric(t.reading.charge).Some?
    ensures r == Ok(true) <==> Numeric(t.reading.charge).Some? && Numeric(t.reading.charge).value < 0.5
  {
    ChargeBelow(t.reading.charge, 0.5)
  }

  /** `LowChargeSensor.is_on`: the charge is below five percent. */
  function LowChargeOn(t: Tank): (r: Result<bool>)
    ensures r.Ok? <==> Numeric(t.reading.charge).Some?
    ensures r == Ok(true) <==> Numeric(t.reading.charge).Some? && Numeric(t.reading.charge).value < 5.0
  {
    ChargeBelow(t.reading.charge, 5.0)
  }

  /** An empty tank is also a low tank, and both sensors fail together. */
  lemma NoChargeImpliesLowCharge(t: Tank)
    ensures NoChargeOn(t) == Ok(true) ==> LowChargeOn(t) == Ok(true)
    ensures LowChargeOn(t) == Ok(false) ==> NoChargeOn(t) == Ok(false)
    ensures NoChargeOn(t).Err? <==> LowChargeOn(t).Err?
  {
  }

  /** Before the first measurement the cached charge is -1, so both sensors
      report on. */
  lemma FreshTankReportsNoCharge(serial: string)
    ensures NoChargeOn(NewTank(serial)) == Ok(true)
    ensures LowChargeOn(NewTank(serial)) == Ok(true)
  {
  }

  /** `PowerSensor.state`: the immersion heater's rating while the electric
      heat source is on, else nothing. */
  function PowerWatts(t: Tank): (r: int)
    ensures r == 3300 || r == 0
  {
    if t.heating.electric then 3300 else 0
  }

  /** On holiday no heat source is on, so the power figure is 0. */
  lemma NoPowerOnHoliday(t: Tank)
    requires HeatingCoherent(t.heating) && t.heating.inHolidayMode
    ensures PowerWatts(t) == 0
  {
  }

  /** A state payload reporting the tank on holiday turns the power figure
      to 0, whatever it was before. */
  lemma VacationStateStopsPower(t: Tank, state: Json)
    requires HasCurrent(state) && OnVacation(CurrentOf(state))
    ensures PowerWatts(t.(heating := DeriveHeating(t.heating, state).value)) == 0
  {
  }

  /** The power figure is 3300 exactly when the electric heat sensor is on. */
  lemma PowerFollowsElectricHeat(t: Tank)
    ensures PowerWatts(t) == 3300 <==> t.heating.electric
  {
  }

  /** `async_added_to_hass`: the entity's state writer joins the observers. */
  function AddedToHass(t: Tank, entity: Observers.Callback): (r: Tank)
    ensures entity in r.callbacks
    ensures r.callbacks == t.callbacks + {entity}
    ensures r.(callbacks := t.callbacks) == t
  {
    t.(callbacks := Observers.Register(t.callbacks, entity))
  }

  /** `async_will_remove_from_hass`: the state writer leaves; removing one
      that is not there is harmless. */
  function WillRemoveFromHass(t: Tank, entity: Observers.Callback): (r: Tank)
    ensures entity !in r.callbacks
    ensures r.callbacks == t.callbacks - {entity}
    ensures r.(callbacks := t.callbacks) == t
  {
    t.(callbacks := Observers.Remove(t.callbacks, entity))
  }

  /** Adding an entity and removing it again restores the observer set. */
  lemma AddThenRemoveRestores(t: Tank, entity: Observers.Callback)
    requires entity !in t.callbacks
    ensures WillRemoveFromHass(AddedToHass(t, entity), entity) == t
  {
    Observers.RegisterThenRemove(t.callbacks, entity);
  }

  /** Each sensor registered under its unique id: the observer set grows by
      one per sensor. */
  lemma TwoSensorsTwoObservers(t: Tank, a: SensorKind, b: SensorKind)
    requires IdentityCoherent(t) && a != b && t.callbacks == {}
    ensures |AddedToHass(AddedToHass(t, Observers.Callback(UniqueId(a, t))), Observers.Callback(UniqueId(b, t))).callbacks| == 2
  {
    UniqueIdsDistinct(t, a, b);
  }
}

=== FILE: session.dfy ===
/** Signing in and finding the tank: `_authenticate`, `_fetch_tank_information`
    and `fetch_data`, which runs them and then the three fetches. Each
    guard skips its network work once the value it produces is cached. */
module Session {
  import opened PyJson
  import opened TankState
  import opened Reconcile
  import opened Commands

  const RootEndpoint: string := "https://www.mixergy.io/api/v2"

  /** A request made on the way, in order: a GET or a POST of a URL. */
  datatype Call = Get(url: Json) | Post(url: Json)

  /** What a coroutine returns (`True`, `False`, `None`) or the exception
      that escapes it. */
  datatype Ret = RetTrue | RetFalse | RetNone | Raised(fault: Fault)

  datatype Outcome = Outcome(tank: Tank, ret: Ret, calls: seq<Call>)

  // ----- authentication -----

  /** `_authenticate`. A cached token short-circuits; otherwise the root
      document names the account document, which names the login endpoint,
      and a 201 from the login stores the token it returns. A timeout is
      caught and gives `None`; a missing link raises. */
  function Authenticate(t: Tank, root: Reply, account: Reply, login: Reply): (r: Outcome)
    ensures Truthy(t.token) ==> r == Outcome(t, RetTrue, [])
    ensures r.tank.(token := t.token) == t
    ensures r.ret == RetTrue && !Truthy(t.token) ==>
      && login.Reply? && login.status == 201 && Index(login.body, "token").Ok?
      && r.tank.token == Index(login.body, "token").value
      && |r.calls| == 3 && r.calls[0] == Get(JStr(RootEndpoint)) && r.calls[2].Post?
    ensures r.ret != RetTrue ==> r.tank == t
    ensures !Truthy(t.token) ==> 1 <= |r.calls| <= 3 && r.calls[0] == Get(JStr(RootEndpoint))
    ensures r.ret.Raised? ==> r.ret.fault != TimeoutError
    // the root document
    ensures !Truthy(t.token) && root.TimedOut? ==> r == Outcome(t, RetNone, [Get(JStr(RootEndpoint))])
    ensures !Truthy(t.token) && root.Reply? && root.status != 200 ==>
      r == Outcome(t, RetFalse, [Get(JStr(RootEndpoint))])
    ensures !Truthy(t.token) && root.Reply? && root.status == 200 ==>
      var acct := Path(root.body, ["_links", "account", "href"]);
      && (acct.Err? ==> r == Outcome(t, Raised(acct.fault), [Get(JStr(RootEndpoint))]))
      && (acct.Ok? ==> |r.calls| >= 2 && r.calls[1] == Get(acct.value))
    // the account document
    ensures !Truthy(t.token) && root.Reply? && root.status == 200
            && Path(root.body, ["_links", "account", "href"]).Ok? ==>
      var c2 := [Get(JStr(RootEndpoint)), Get(Path(root.body, ["_links", "account", "href"]).value)];
      && (account.TimedOut? ==> r == Outcome(t, RetNone, c2))
      && (account.Reply? && account.status != 200 ==> r == Outcome(t, RetFalse, c2))
      && (account.Reply? && account.status == 200 ==>
            var lg := Path(account.body, ["_links", "login", "href"]);
            && (lg.Err? ==> r == Outcome(t, Raised(lg.fault), c2))
            && (lg.Ok? ==> r.calls == c2 + [Post(lg.value)]))
    // the login
    ensures !Truthy(t.token) && |r.calls| == 3 ==>
      && (login.TimedOut? ==> r.ret == RetNone && r.tank == t)
      && (login.Reply? && login.status != 201 ==> r.ret == RetFalse && r.tank == t)
      && (login.Reply? && login.status == 201 ==>
            var tok := Index(login.body, "token");
            && (tok.Err? ==> r.ret == Raised(tok.fault) && r.tank == t)
            && (tok.Ok? ==> r.ret == RetTrue && r.tank == t.(token := tok.value)))
  {
    if Truthy(t.token) then Outcome(t, RetTrue, [])
    else
      var c1 := [Get(JStr(RootEndpoint))];
      match root
      case TimedOut => Outcome(t, RetNone, c1)
      case Reply(status, body) =>
        if status != 200 then Outcome(t, RetFalse, c1)
        else
          match Path(body, ["_links", "account", "href"])
          case Err(f) => Outcome(t, Raised(f), c1)
          case Ok(accountUrl) =>
            FromAccount(t, c1 + [Get(accountUrl)], account, login)
  }

  /** The account document, already requested in `calls`: it names the
      login endpoint, which is then posted to. */
  function FromAccount(t: Tank, calls: seq<Call>, account: Reply, login: Reply): (r: Outcome)
    ensures account.TimedOut? ==> r == Outcome(t, RetNone, calls)
    ensures account.Reply? && account.status != 200 ==> r == Outcome(t, RetFalse, calls)
    ensures account.Reply? && account.status == 200 ==>
      var lg := Path(account.body, ["_links", "login", "href"]);
      && (lg.Err? ==> r == Outcome(t, Raised(lg.fault), calls))
      && (lg.Ok? ==> r == SignIn(t, calls + [Post(lg.value)], login))
    ensures r.calls == calls || (r.calls[..|calls|] == calls && |r.calls| == |calls| + 1 && r.calls[|calls|].Post?)
    ensures r.ret == RetTrue ==> |r.calls| == |calls| + 1
    ensures r.ret.Raised? ==> r.ret.fault != TimeoutError
  {
    match account
    case TimedOut => Outcome(t, RetNone, calls)
    case Reply(status, body) =>
      if status != 200 then Outcome(t, RetFalse, calls)
      else
        match Path(body, ["_links", "login", "href"])
        case Err(f) => Outcome(t, Raised(f), calls)
        case Ok(loginUrl) => SignIn(t, calls + [Post(loginUrl)], login)
  }

  /** The login POST, already recorded in `calls`: a 201 stores the token
      its body carries. */
  function SignIn(t: Tank, calls: seq<Call>, login: Reply): (r: Outcome)
    ensures r.calls == calls
    ensures login.TimedOut? ==> r == Outcome(t, RetNone, calls)
    ensures login.Reply? && login.status != 201 ==> r == Outcome(t, RetFalse, calls)
    ensures login.Reply? && login.status == 201 ==>
      var tok := Index(login.body, "token");
      && (tok.Err? ==> r == Outcome(t, Raised(tok.fault), calls))
      && (tok.Ok? ==> r == Outcome(t.(token := tok.value), RetTrue, calls))
  {
    match login
    case TimedOut => Outcome(t, RetNone, calls)
    case Reply(status, body) =>
      if status != 201 then Outcome(t, RetFalse, calls)
      else
        match Index(body, "token")
        case Err(f) => Outcome(t, Raised(f), calls)
        case Ok(token) => Outcome(t.(token := token), RetTrue, calls)
  }

  /** Once a usable token is stored, signing in again makes no request and
      changes nothing. */
  lemma AuthenticateIsIdempotent(t: Tank, root: Reply, account: Reply, login: Reply, root2: Reply, account2: Reply, login2: Reply)
    requires Authenticate(t, root, account, login).ret == RetTrue
    requires Truthy(Authenticate(t, root, account, login).tank.token)
    ensures var t1 := Authenticate(t, root, account, login).tank;
      Authenticate(t1, root2, account2, login2) == Outcome(t1, RetTrue, [])
  {
  }

  // ----- finding the tank -----

  /** The values `for subjobj in tanks` visits before the first subscript
      fails: a list's elements, nothing for an empty dictionary or string.
      The keys of a non-empty dictionary and the characters of a non-empty
      string are strings, which the loop's `subjobj['serialNumber']` rejects
      with a `TypeError`; anything else is not iterable. */
  function Entries(tanks: Json): (r: Result<seq<Json>>)
    ensures tanks.JArr? ==> r == Ok(tanks.items)
    ensures r.Ok? <==> tanks.JArr? || tanks == JObj(map[]) || tanks == JStr("")
    ensures r.Ok? ==> tanks.JArr? || !Truthy(tanks)
    ensures r.Err? ==> r == Err(TypeError)
  {
    match tanks
    case JArr(items) => Ok(items)
    case JObj(fields) => if fields == map[] then Ok([]) else Err(TypeError)
    case JStr(s) => if s == "" then Ok([]) else Err(TypeError)
    case _ => Err(TypeError)
  }

  /** The entry at `i` is an object whose serial number is `serial`. */
  predicate MatchesAt(entries: seq<Json>, i: int, serial: string)
    requires 0 <= i < |entries|
  {
    Index(entries[i], "serialNumber") == Ok(JStr(serial))
  }

  /** The loop over the tank list: the first entry whose `serialNumber`
      equals `serial`, `None` when there is none, or the exception the
      first malformed entry before any match raises. */
  function FindTank(entries: seq<Json>, serial: string): (r: Result<Option<nat>>)
    ensures r.Ok? && r.value.Some? ==>
      && r.value.value < |entries|
      && MatchesAt(entries, r.value.value, serial)
      && forall i | 0 <= i < r.value.value :: Index(entries[i], "serialNumber").Ok? && !MatchesAt(entries, i, serial)
    ensures r == Ok(None) <==>
      forall i | 0 <= i < |entries| :: Index(entries[i], "serialNumber").Ok? && !MatchesAt(entries, i, serial)
    decreases |entries|
  {
    if entries == [] then Ok(None)
    else
      match Index(entries[0], "serialNumber")
      case Err(f) => Err(f)
      case Ok(v) =>
        if PyEq(JStr(serial), v) then Ok(Some(0))
        else
          match FindTank(entries[1..], serial)
          case Err(f) => Err(f)
          case Ok(None) => Ok(None)
          case Ok(Some(i)) => Ok(Some(i + 1))
  }

  /** The writes made from the tank's detail document, in order; each
      stops the run at the first exception. */
  function ApplyDetail(t: Tank, d: Json): (r: Step<Tank>)
    ensures r.value.(links := t.links, device := t.device) == t
    ensures r.fault.None? <==>
      && Path(d, ["_links", "latest_measurement", "href"]).Ok?
      && Path(d, ["_links", "control", "href"]).Ok?
      && Path(d, ["_links", "settings", "href"]).Ok?
      && Path(d, ["_links", "schedule", "href"]).Ok?
      && Index(d, "id").Ok? && Index(d, "tankModelCode").Ok? && Index(d, "firmwareVersion").Ok?
      && Path(d, ["configuration", "mixergyPvType"]).Ok?
    ensures r.fault.None? ==>
      && r.value.links == Links(
           Path(d, ["_links", "latest_measurement", "href"]).value,
           Path(d, ["_links", "control", "href"]).value,
           Path(d, ["_links", "settings", "href"]).value,
           Path(d, ["_links", "schedule", "href"]).value)
      && r.value.device == Device(
           Index(d, "id").value, Index(d, "tankModelCode").value, Index(d, "firmwareVersion").value,
           !PyEq(Path(d, ["configuration", "mixergyPvType"]).value, JStr("NO_INVERTER")))
    ensures Path(d, ["_links", "latest_measurement", "href"]).Err? ==> r.value == t
    ensures Path(d, ["_links", "latest_measurement", "href"]).Ok? ==>
      r.value.links.measurement == Path(d, ["_links", "latest_measurement", "href"]).value
    ensures Path(d, ["configuration", "mixergyPvType"]).Err? ==>
      r.fault.Some? && r.value.device.hasPvDiverter == t.device.hasPvDiverter
  {
    match Path(d, ["_links", "latest_measurement", "href"])
    case Err(f) => Step(t, Some(f))
    case Ok(measurement) =>
      var t1 := t.(links := t.links.(measurement := measurement));
      match Path(d, ["_links", "control", "href"])
      case Err(f) => Step(t1, Some(f))
      case Ok(control) =>
        var t2 := t1.(links := t1.links.(control := control));
        match Path(d, ["_links", "settings", "href"])
        case Err(f) => Step(t2, Some(f))
        case Ok(settings) =>
          var t3 := t2.(links := t2.links.(settings := settings));
          match Path(d, ["_links", "schedule", "href"])
          case Err(f) => Step(t3, Some(f))
          case Ok(schedule) =>
            var t4 := t3.(links := t3.links.(schedule := schedule));
            ApplyDeviceFacts(t4, d)
  }

  /** The device part of the detail document: id, model, firmware, then
      whether a PV diverter is fitted (the configuration must name its PV
      type; there is no default). */
  function ApplyDeviceFacts(t: Tank, d: Json): (r: Step<Tank>)
    ensures r.value.(device := t.device) == t
    ensures r.fault.None? <==>
      Index(d, "id").Ok? && Index(d, "tankModelCode").Ok? && Index(d, "firmwareVersion").Ok?
      && Path(d, ["configuration", "mixergyPvType"]).Ok?
    ensures r.fault.None? ==> r.value.device == Device(
      Index(d, "id").value, Index(d, "tankModelCode").value, Index(d, "firmwareVersion").value,
      !PyEq(Path(d, ["configuration", "mixergyPvType"]).value, JStr("NO_INVERTER")))
    ensures Path(d, ["configuration", "mixergyPvType"]).Err? ==> r.value.device.hasPvDiverter == t.device.hasPvDiverter
  {
    match Index(d, "id")
    case Err(f) => Step(t, Some(f))
    case Ok(uuid) =>
      var t1 := t.(device := t.device.(uuid := uuid));
      match Index(d, "tankModelCode")
      case Err(f) => Step(t1, Some(f))
      case Ok(model) =>
        var t2 := t1.(device := t1.device.(modelCode := model));
        match Index(d, "firmwareVersion")
        case Err(f) => Step(t2, Some(f))
        case Ok(firmware) =>
          var t3 := t2.(device := t2.device.(firmwareVersion := firmware));
          match Path(d, ["configuration", "mixergyPvType"])
          case Err(f) => Step(t3, Some(f))
          case Ok(pvType) =>
            Step(t3.(device := t3.device.(hasPvDiverter := !PyEq(pvType, JStr("NO_INVERTER")))), None)
  }

  /** `_fetch_tank_information`. A cached measurement URL short-circuits.
      Otherwise: the root document names the tank list, the entry whose
      serial number equals the configured one names its detail document,
      and the detail document fills in the links and device facts. No
      exception is caught here, timeouts included. */
  function ResolveLinks(t: Tank, root: Reply, list: Reply, detail: Reply): (r: Outcome)
    ensures Truthy(t.links.measurement) ==> r == Outcome(t, RetNone, [])
    ensures r.tank.(links := t.links, device := t.device) == t
    ensures r.ret == RetFalse ==> r.tank == t
    ensures r.ret == RetTrue ==>
      && Fetched(root) && Fetched(list) && Fetched(detail)
      && r.tank == ApplyDetail(t, detail.body).value
      && |r.calls| == 3
    ensures !Truthy(t.links.measurement) && root == TimedOut ==> r == Outcome(t, Raised(TimeoutError), [Get(JStr(RootEndpoint))])
    ensures !Truthy(t.links.measurement) && root.Reply? && root.status != 200 ==>
      r == Outcome(t, RetFalse, [Get(JStr(RootEndpoint))])
    ensures !Truthy(t.links.measurement) && Fetched(root) ==>
      var tanks := Path(root.body, ["_links", "tanks", "href"]);
      && (tanks.Err? ==> r == Outcome(t, Raised(tanks.fault), [Get(JStr(RootEndpoint))]))
      && (tanks.Ok? ==> r == FromTankList(t, tanks.value, list, detail))
  {
    if Truthy(t.links.measurement) then Outcome(t, RetNone, [])
    else
      var c1 := [Get(JStr(RootEndpoint))];
      match root
      case TimedOut => Outcome(t, Raised(TimeoutError), c1)
      case Reply(status, body) =>
        if status != 200 then Outcome(t, RetFalse, c1)
        else
          match Path(body, ["_links", "tanks", "href"])
          case Err(f) => Outcome(t, Raised(f), c1)
          case Ok(tanksUrl) => FromTankList(t, tanksUrl, list, detail)
  }

  /** The root document fetched: the GET of the tank list from `url`, then
      the lookup in it. */
  function FromTankList(t: Tank, url: Json, list: Reply, detail: Reply): (r: Outcome)
    ensures var c2 := [Get(JStr(RootEndpoint)), Get(url)];
      && (list.TimedOut? ==> r == Outcome(t, Raised(TimeoutError), c2))
      && (list.Reply? && list.status != 200 ==> r == Outcome(t, RetFalse, c2))
      && (Fetched(list) ==> r == LookUpTank(t, list.body, detail, c2))
    ensures r.tank.(links := t.links, device := t.device) == t
    ensures r.ret == RetFalse ==> r.tank == t
    ensures r.ret == RetTrue ==>
      && Fetched(list) && Fetched(detail)
      && r.tank == ApplyDetail(t, detail.body).value
      && |r.calls| == 3
  {
    var c2 := [Get(JStr(RootEndpoint)), Get(url)];
    match list
    case TimedOut => Outcome(t, Raised(TimeoutError), c2)
    case Reply(status, body) =>
      if status != 200 then Outcome(t, RetFalse, c2)
      else LookUpTank(t, body, detail, c2)
  }

  /** The `_links.self.href` of the tank list entry whose serial number is
      `serial`, when the list, the match and the link are all there. */
  function SelfLink(list: Json, serial: string): (r: Option<Json>)
    ensures Path(list, ["_embedded", "tankList"]).Err? ==> r.None?
    ensures r.Some? ==>
      && Path(list, ["_embedded", "tankList"]).Ok?
      && Entries(Path(list, ["_embedded", "tankList"]).value).Ok?
      && var entries := Entries(Path(list, ["_embedded", "tankList"]).value).value;
         exists i | 0 <= i < |entries| ::
           && MatchesAt(entries, i, serial)
           && Path(entries[i], ["_links", "self", "href"]) == Ok(r.value)
    ensures var tanks := Path(list, ["_embedded", "tankList"]);
      tanks.Ok? && Entries(tanks.value).Ok? && FindTank(Entries(tanks.value).value, serial) == Ok(None) ==> r.None?
  {
    match Path(list, ["_embedded", "tankList"])
    case Err(_) => None
    case Ok(tanks) =>
      match Entries(tanks)
      case Err(_) => None
      case Ok(entries) =>
        var found := FindTank(entries, serial);
        if found.Err? || found.value.None? then None
        else
          match Path(entries[found.value.value], ["_links", "self", "href"])
          case Ok(url) => Some(url)
          case Err(_) => None
  }

  /** The tank list part of `_fetch_tank_information`: the detail document
      is requested from the matching entry's self link. */
  function LookUpTank(t: Tank, list: Json, detail: Reply, calls: seq<Call>): (r: Outcome)
    ensures r.tank.(links := t.links, device := t.device) == t
    ensures r.ret == RetFalse ==> r.tank == t
    ensures r.ret == RetTrue ==> Fetched(detail) && r.tank == ApplyDetail(t, detail.body).value
    ensures |calls| <= |r.calls| <= |calls| + 1 && r.calls[..|calls|] == calls
    ensures r.ret == RetTrue ==> |r.calls| == |calls| + 1
    ensures r.ret != RetNone
    ensures SelfLink(list, t.serialNumber).None? ==> r.calls == calls && r.tank == t && r.ret != RetTrue
    ensures SelfLink(list, t.serialNumber).Some? ==>
      r == FetchDetail(t, SelfLink(list, t.serialNumber).value, detail, calls)
    ensures (match Path(list, ["_embedded", "tankList"])
             case Ok(tanks) => Entries(tanks).Ok? && FindTank(Entries(tanks).value, t.serialNumber) == Ok(None)
             case Err(_) => false) ==> r == Outcome(t, RetFalse, calls)
  {
    match Path(list, ["_embedded", "tankList"])
    case Err(f) => Outcome(t, Raised(f), calls)
    case Ok(tanks) =>
      match Entries(tanks)
      case Err(f) => Outcome(t, Raised(f), calls)
      case Ok(entries) =>
        match FindTank(entries, t.serialNumber)
        case Err(f) => Outcome(t, Raised(f), calls)
        case Ok(None) => Outcome(t, RetFalse, calls)
        case Ok(Some(i)) =>
          match Path(entries[i], ["_links", "self", "href"])
          case Err(f) => Outcome(t, Raised(f), calls)
          case Ok(tankUrl) => FetchDetail(t, tankUrl, detail, calls)
  }

  /** The GET of the tank's detail document from `url`, and its writes. */
  function FetchDetail(t: Tank, url: Json, detail: Reply, calls: seq<Call>): (r: Outcome)
    ensures r.calls == calls + [Get(url)]
    ensures detail.TimedOut? ==> r == Outcome(t, Raised(TimeoutError), r.calls)
    ensures detail.Reply? && detail.status != 200 ==> r == Outcome(t, RetFalse, r.calls)
    ensures Fetched(detail) ==>
      var s := ApplyDetail(t, detail.body);
      && r.tank == s.value
      && (s.fault.None? ==> r.ret == RetTrue)
      && (s.fault.Some? ==> r.ret == Raised(s.fault.value))
    ensures r.ret != RetNone
    ensures r.tank.(links := t.links, device := t.device) == t
  {
    var c := calls + [Get(url)];
    match detail
    case TimedOut => Outcome(t, Raised(TimeoutError), c)
    case Reply(status, body) =>
      if status != 200 then Outcome(t, RetFalse, c)
      else
        var s := ApplyDetail(t, body);
        Outcome(s.value, if s.fault.Some? then Raised(s.fault.value) else RetTrue, c)
  }

  /** A resolution that stored a usable measurement URL is not repeated:
      the next call makes no request and changes nothing. */
  lemma ResolveIsIdempotent(t: Tank, root: Reply, list: Reply, detail: Reply, root2: Reply, list2: Reply, detail2: Reply)
    requires Truthy(ResolveLinks(t, root, list, detail).tank.links.measurement)
    ensures var t1 := ResolveLinks(t, root, list, detail).tank;
      ResolveLinks(t1, root2, list2, detail2) == Outcome(t1, RetNone, [])
  {
  }

  /** The guard looks only at the measurement URL, which is the first value
      the detail document writes. A detail document that breaks off later
      (here: no PV type in its configuration) leaves that URL set, so the
      resolution is never attempted again and the PV-diverter flag keeps its
      old value for good. */
  lemma PartialDetailIsNotRetried(t: Tank, d: Json, root: Reply, list: Reply, detail: Reply)
    requires Path(d, ["_links", "latest_measurement", "href"]).Ok?
    requires Truthy(Path(d, ["_links", "latest_measurement", "href"]).value)
    requires Path(d, ["configuration", "mixergyPvType"]).Err?
    ensures ApplyDetail(t, d).fault.Some?
    ensures var t1 := ApplyDetail(t, d).value;
      && ResolveLinks(t1, root, list, detail) == Outcome(t1, RetNone, [])
      && t1.device.hasPvDiverter == t.device.hasPvDiverter
  {
  }

  /** The tank list is matched against the upper-cased serial, exactly: an
      entry carrying the serial as configured is found precisely when
      upper-casing does not change it. */
  lemma SerialMatchIsExact(t: Tank, serial: string)
    requires t.serialNumber == Upper(serial)
    ensures var entries := [JObj(map["serialNumber" := JStr(serial)])];
      && (FindTank(entries, t.serialNumber) == Ok(Some(0)) <==> Upper(serial) == serial)
      && (FindTank(entries, t.serialNumber) == Ok(None) <==> Upper(serial) != serial)
  {
  }

  /** For instance, a serial configured in lower case is not found. */
  lemma LowerCaseSerialNotFound(t: Tank, entry: Json)
    requires t.serialNumber == Upper("ab12") && entry == JObj(map["serialNumber" := JStr("ab12")])
    ensures FindTank([entry], t.serialNumber) == Ok(None)
  {
    assert Upper("ab12") == "AB12";
    SerialMatchIsExact(t, "ab12");
  }

  // ----- fetch_data -----

  /** The replies the server gives to one `fetch_data`, request by request. */
  datatype Replies = Replies(
    authRoot: Reply, account: Reply, login: Reply,
    resolveRoot: Reply, list: Reply, detail: Reply,
    measurement: Reply, settings: Reply, schedule: Reply)

  datatype Refresh = Refresh(tank: Tank, fired: seq<ChargeChanged>, published: bool, fault: Option<Fault>)

  /** The three fetches of `fetch_data`, run on a tank whose links are
      resolved: the measurement, the settings, then the schedule. The
      first exception ends the run unpublished. */
  function FetchResolved(t: Tank, measurement: Reply, settings: Reply, schedule: Reply): (r: Refresh)
    ensures r.published <==> r.fault.None?
    ensures var m := FetchMeasurement(t, measurement);
      && r.fired == m.fired
      && (m.fault.Some? ==> r == Refresh(m.tank, m.fired, false, m.fault))
      && (m.fault.None? ==> r.tank == FetchSchedule(FetchSettings(m.tank, settings).value, schedule) || !r.published)
    ensures var m := FetchMeasurement(t, measurement);
      var s := FetchSettings(m.tank, settings);
      && (m.fault.None? && s.fault.Some? ==> r == Refresh(s.value, m.fired, false, s.fault))
      && (m.fault.None? && s.fault.None? ==> r == Refresh(FetchSchedule(s.value, schedule), m.fired, true, None))
    ensures r.published ==>
      && r.tank.reading == FetchMeasurement(t, measurement).tank.reading
      && r.tank.settings == (if Fetched(settings) then ApplySettings(t.settings, settings.body).value else t.settings)
      && r.tank.schedule == (if Fetched(schedule) then schedule.body else t.schedule)
    ensures r.tank.(reading := t.reading, heating := t.heating, settings := t.settings, schedule := t.schedule) == t
  {
    var m := FetchMeasurement(t, measurement);
    if m.fault.Some? then Refresh(m.tank, m.fired, false, m.fault)
    else
      var s := FetchSettings(m.tank, settings);
      if s.fault.Some? then Refresh(s.value, m.fired, false, s.fault)
      else Refresh(FetchSchedule(s.value, schedule), m.fired, true, None)
  }

  /** With fresh 200 replies, an applicable measurement and a settings body
      carrying every key, a cached refresh publishes the server's state: its
      reading, each of its settings and its schedule. */
  lemma CachedRefreshPublishesServerState(t: Tank, rs: Replies, k: SettingKey)
    requires Truthy(t.token) && Truthy(t.links.measurement)
    requires Fetched(rs.measurement) && ApplyMeasurement(t, rs.measurement.body).fault.None?
    requires Fetched(rs.settings) && Fetched(rs.schedule)
    requires KeysPresent(rs.settings.body, RequiredSettingKeys, |RequiredSettingKeys|)
    requires KeysPresent(rs.settings.body, PvSettingKeys, |PvSettingKeys|)
    ensures var r := FetchData(t, rs);
      && r.published
      && r.tank.reading == ApplyMeasurement(t, rs.measurement.body).tank.reading
      && Index(rs.settings.body, KeyName(k)) == Ok(SettingOf(r.tank.settings, k))
      && r.tank.schedule == rs.schedule.body
  {
    FullSettingsEcho(t.settings, rs.settings.body, k);
  }

  /** `fetch_data`: authenticate, resolve, then fetch the measurement, the
      settings and the schedule, then publish. No step looks at what the one
      before it returned; an exception ends the run where it is raised. */
  function FetchData(t: Tank, rs: Replies): (r: Refresh)
    ensures r.published <==> r.fault.None?
    ensures r.tank.callbacks == t.callbacks && r.tank.channel == t.channel
    ensures r.tank.serialNumber == t.serialNumber && r.tank.id == t.id
    ensures HeatingCoherent(t.heating) ==> HeatingCoherent(r.tank.heating)
    ensures Truthy(t.token) && Truthy(t.links.measurement) ==>
      r.tank.token == t.token && r.tank.links == t.links && r.tank.device == t.device
    ensures Truthy(t.token) && Truthy(t.links.measurement) ==>
      r == FetchResolved(t, rs.measurement, rs.settings, rs.schedule)
    ensures var a := Authenticate(t, rs.authRoot, rs.account, rs.login);
      var l := ResolveLinks(a.tank, rs.resolveRoot, rs.list, rs.detail);
      && (a.ret.Raised? ==> r == Refresh(a.tank, [], false, Some(a.ret.fault)))
      && (!a.ret.Raised? && l.ret.Raised? ==> r == Refresh(l.tank, [], false, Some(l.ret.fault)))
      && (!a.ret.Raised? && !l.ret.Raised? ==> r == FetchResolved(l.tank, rs.measurement, rs.settings, rs.schedule))
  {
    var a := Authenticate(t, rs.authRoot, rs.account, rs.login);
    if a.ret.Raised? then Refresh(a.tank, [], false, Some(a.ret.fault))
    else
      var l := ResolveLinks(a.tank, rs.resolveRoot, rs.list, rs.detail);
      if l.ret.Raised? then Refresh(l.tank, [], false, Some(l.ret.fault))
      else
        FetchResolved(l.tank, rs.measurement, rs.settings, rs.schedule)
  }

  /** A failed sign-in does not stop the refresh: with the links already
      resolved, the fetches still run (with whatever token is cached). A
      measurement body that raises ends the run there, unpublished, before
      the settings are fetched. */
  lemma FailedSignInStillFetches(t: Tank, rs: Replies)
    requires !Truthy(t.token) && Truthy(t.links.measurement)
    requires rs.authRoot.Reply? && rs.authRoot.status != 200
    ensures var m := FetchMeasurement(t, rs.measurement);
      m.fault.Some? ==> FetchData(t, rs) == Refresh(m.tank, m.fired, false, Some(TypeError))
    ensures var m := FetchMeasurement(t, rs.measurement);
      var s := FetchSettings(m.tank, rs.settings);
      m.fault.None? && s.fault.None? ==>
        FetchData(t, rs) == Refresh(FetchSchedule(s.value, rs.schedule), m.fired, true, None)
  {
  }

  /** A 200 measurement reply the client cannot apply is a refresh that
      neither publishes nor reaches the settings, whatever they say. */
  lemma BadMeasurementStopsRefresh(t: Tank, rs: Replies, settings: Reply)
    requires Truthy(t.token) && Truthy(t.links.measurement)
    requires Fetched(rs.measurement) && ApplyMeasurement(t, rs.measurement.body).fault.Some?
    ensures FetchData(t, rs).fault == Some(TypeError) && !FetchData(t, rs).published
    ensures FetchData(t, rs) == FetchData(t, rs.(settings := settings, schedule := settings))
  {
  }
}

=== FILE: switches.dfy ===
/** The four switch entities: each shows one cached settings flag and turns
    it on or off through the matching setter. */
module Switches {
  import opened PyJson
  import opened TankState
  import opened Reconcile
  import opened Commands

  datatype SwitchKind = Dsr | FrostProtection | DistributedComputing | PvDivert

  /** The settings field a switch shows and sets. */
  function Field(sw: SwitchKind): (k: SettingKey)
    ensures Range(k).None?
  {
    match sw
    case Dsr => DsrEnabled
    case FrostProtection => FrostProtectionEnabled
    case DistributedComputing => DistributedComputingEnabled
    case PvDivert => DivertExportedEnabled
  }

  /** Different switches drive different fields. */
  lemma FieldIsInjective(a: SwitchKind, b: SwitchKind)
    requires a != b
    ensures Field(a) != Field(b)
  {
  }

  /** `is_on`: the cached flag, as the server sent it. */
  function IsOn(sw: SwitchKind, t: Tank): (r: Json)
    ensures sw == Dsr ==> r == t.settings.dsrEnabled
    ensures sw == FrostProtection ==> r == t.settings.frostProtectionEnabled
    ensures sw == DistributedComputing ==> r == t.settings.distributedComputingEnabled
    ensures sw == PvDivert ==> r == t.settings.divertExportedEnabled
  {
    SettingOf(t.settings, Field(sw))
  }

  /** `async_turn_on` / `async_turn_off`: one setter call with `True` or
      `False`. */
  function Toggle(sw: SwitchKind, on: bool): (c: Command)
    ensures c.SetSetting? && c.value == JBool(on)
  {
    SetSetting(Field(sw), JBool(on))
  }

  /** A toggle PUTs exactly one key, the switch's own, with the plain
      boolean, to the settings resource. */
  lemma ToggleSendsOnlyItsField(t: Tank, sw: SwitchKind, on: bool)
    ensures PlanPut(t, Toggle(sw, on)) == Ok(Request(t.links.settings, JObj(map[KeyName(Field(sw)) := JBool(on)])))
  {
  }

  /** A toggle leaves every other switch alone, whatever the server says. */
  lemma ToggleLeavesOtherSwitches(t: Tank, sw: SwitchKind, other: SwitchKind, on: bool, put: Reply, refetch: Reply)
    requires other != sw
    requires !PutSucceeded(put)
    ensures IsOn(other, Execute(t, Toggle(sw, on), put, refetch).tank) == IsOn(other, t)
  {
  }

  /** A toggle the server accepts and reports back shows up in `is_on`. */
  lemma SwitchFollowsServer(t: Tank, sw: SwitchKind, on: bool, put: Reply, body: Json)
    requires PutSucceeded(put)
    requires KeysPresent(body, RequiredSettingKeys, |RequiredSettingKeys|)
    requires KeysPresent(body, PvSettingKeys, |PvSettingKeys|)
    requires KeyName(Field(sw)) in body.fields && body.fields[KeyName(Field(sw))] == JBool(on)
    ensures IsOn(sw, Execute(t, Toggle(sw, on), put, Reply(200, body)).tank) == JBool(on)
  {
    SettingFollowsServer(t, Field(sw), JBool(on), put, body);
  }

  /** `available`: every switch follows the tank's `online`, which is always
      true; the PV divert switch also needs a PV diverter. */
  function Available(sw: SwitchKind, t: Tank): (r: bool)
    ensures sw == PvDivert ==> (r <==> t.device.hasPvDiverter)
    ensures sw != PvDivert ==> r
  {
    var online := true;
    online && (sw == PvDivert ==> t.device.hasPvDiverter)
  }

  function Suffix(sw: SwitchKind): string
  {
    match sw
    case Dsr => "_dsr_enabled"
    case FrostProtection => "_frost_protection_enabled"
    case DistributedComputing => "_distributed_computng_enabled"
    case PvDivert => "_pv_divert_enabled"
  }

  /** `unique_id`: `mixergy_{tank_id}{suffix}`. */
  function UniqueId(sw: SwitchKind, t: Tank): (r: string)
    ensures |r| == 8 + |t.id| + |Suffix(sw)|
    ensures r[..8] == "mixergy_"
    ensures r[8..8 + |t.id|] == t.id
    ensures r[8 + |t.id|..] == Suffix(sw)
  {
    "mixergy_" + t.id + Suffix(sw)
  }

  /** The four switches of one tank have four different unique ids (their
      suffixes differ in length). */
  lemma UniqueIdsDistinct(t: Tank, a: SwitchKind, b: SwitchKind)
    requires a != b
    ensures UniqueId(a, t) != UniqueId(b, t)
  {
  }
}

=== FILE: tank.dfy ===
/** The cached state of one tank client, as an immutable record grouped by the
    resource each part comes from. Fields that the client copies verbatim
    out of a payload hold the decoded JSON value; the heat-source and holiday
    flags are always Python booleans. */
module TankState {
  import opened PyJson
  import Connection
  import Observers

  /** The four working endpoints, empty strings until resolved. */
  datatype Links = Links(measurement: Json, control: Json, settings: Json, schedule: Json)

  /** Facts about the device read while resolving the links. */
  datatype Device = Device(uuid: Json, modelCode: Json, firmwareVersion: Json, hasPvDiverter: bool)

  /** `_pv_power`: 0, or the measurement's `pvEnergy / 60000`, kept
      unevaluated because the client computes it in floating point. */
  datatype PvPower = PvZero | PvScaled(pvEnergy: real)

  /** Fields derived from a measurement payload. */
  datatype Reading = Reading(
    hotWaterTemperature: Json,
    coldestWaterTemperature: Json,
    pvPower: PvPower,
    clampPower: Json,
    charge: Json)

  /** Fields derived from the measurement's embedded heating state. */
  datatype Heating = Heating(
    targetCharge: Json,
    indirect: bool,
    electric: bool,
    heatpump: bool,
    inHolidayMode: bool)

  /** Fields derived from a settings payload. */
  datatype Settings = Settings(
    targetTemperature: Json,
    targetTemperatureControlEnabled: Json,
    dsrEnabled: Json,
    frostProtectionEnabled: Json,
    distributedComputingEnabled: Json,
    cleansingTemperature: Json,
    divertExportedEnabled: Json,
    pvCutInThreshold: Json,
    pvChargeLimit: Json,
    pvTargetCurrent: Json,
    pvOverTemperature: Json)

  /** The keys of a settings payload, one per cached settings field. */
  datatype SettingKey =
    | MaxTemp | TargetTemperatureControlEnabled | DsrEnabled | FrostProtectionEnabled
    | DistributedComputingEnabled | CleansingTemperature | DivertExportedEnabled
    | PvChargeLimit | PvCutInThreshold | PvTargetCurrent | PvOverTemperature

  /** The key as it appears in the settings document. */
  function KeyName(k: SettingKey): string
  {
    match k
    case MaxTemp => "max_temp"
    case TargetTemperatureControlEnabled => "target_temperature_control_enabled"
    case DsrEnabled => "dsr_enabled"
    case FrostProtectionEnabled => "frost_protection_enabled"
    case DistributedComputingEnabled => "distributed_computing_enabled"
    case CleansingTemperature => "cleansing_temperature"
    case DivertExportedEnabled => "divert_exported_enabled"
    case PvChargeLimit => "pv_charge_limit"
    case PvCutInThreshold => "pv_cut_in_threshold"
    case PvTargetCurrent => "pv_target_current"
    case PvOverTemperature => "pv_over_temperature"
  }

  /** The order in which the client assigns settings: six keys every
      firmware sends, then the PV-diverter ones. */
  const RequiredSettingKeys: seq<SettingKey> := [
    MaxTemp, TargetTemperatureControlEnabled, DsrEnabled,
    FrostProtectionEnabled, DistributedComputingEnabled, CleansingTemperature]

  const PvSettingKeys: seq<SettingKey> := [
    DivertExportedEnabled, PvChargeLimit, PvCutInThreshold, PvTargetCurrent, PvOverTemperature]

  /** The cached field for a settings key. */
  function SettingOf(s: Settings, k: SettingKey): Json
  {
    match k
    case MaxTemp => s.targetTemperature
    case TargetTemperatureControlEnabled => s.targetTemperatureControlEnabled
    case DsrEnabled => s.dsrEnabled
    case FrostProtectionEnabled => s.frostProtectionEnabled
    case DistributedComputingEnabled => s.distributedComputingEnabled
    case CleansingTemperature => s.cleansingTemperature
    case DivertExportedEnabled => s.divertExportedEnabled
    case PvChargeLimit => s.pvChargeLimit
    case PvCutInThreshold => s.pvCutInThreshold
    case PvTargetCurrent => s.pvTargetCurrent
    case PvOverTemperature => s.pvOverTemperature
  }

  /** Store `v` in the field for `k`. */
  function WithSetting(s: Settings, k: SettingKey, v: Json): (r: Settings)
    ensures SettingOf(r, k) == v
    ensures forall other | other != k :: SettingOf(r, other) == SettingOf(s, other)
  {
    match k
    case MaxTemp => s.(targetTemperature := v)
    case TargetTemperatureControlEnabled => s.(targetTemperatureControlEnabled := v)
    case DsrEnabled => s.(dsrEnabled := v)
    case FrostProtectionEnabled => s.(frostProtectionEnabled := v)
    case DistributedComputingEnabled => s.(distributedComputingEnabled := v)
    case CleansingTemperature => s.(cleansingTemperature := v)
    case DivertExportedEnabled => s.(divertExportedEnabled := v)
    case PvChargeLimit => s.(pvChargeLimit := v)
    case PvCutInThreshold => s.(pvCutInThreshold := v)
    case PvTargetCurrent => s.(pvTargetCurrent := v)
    case PvOverTemperature => s.(pvOverTemperature := v)
  }

  datatype Tank = Tank(
    serialNumber: string,   // the configured serial, upper-cased
    id: string,             // the configured serial, lower-cased
    token: Json,
    links: Links,
    device: Device,
    reading: Reading,
    heating: Heating,
    settings: Settings,
    schedule: Json,         // `JNull` until a schedule is fetched
    callbacks: set<Observers.Callback>,
    channel: Connection.Channel)

  /** At most one heat source is reported active. */
  predicate AtMostOneHeatSource(h: Heating)
  {
    (if h.indirect then 1 else 0) + (if h.electric then 1 else 0) + (if h.heatpump then 1 else 0) <= 1
  }

  /** The heating invariant the state reconciler maintains: at most one heat
      source, and none at all while the tank is on holiday. */
  predicate HeatingCoherent(h: Heating)
  {
    AtMostOneHeatSource(h) && (h.inHolidayMode ==> !h.indirect && !h.electric && !h.heatpump)
  }

  /** Both identifiers come from the same configured serial number. */
  predicate IdentityCoherent(t: Tank)
  {
    |t.serialNumber| == |t.id|
  }

  /** A freshly constructed client for the configured serial number. */
  function NewTank(serial: string): (t: Tank)
    ensures t.serialNumber == Upper(serial) && t.id == Lower(serial)
    ensures IdentityCoherent(t) && HeatingCoherent(t.heating)
    ensures !Truthy(t.token) && !Truthy(t.links.measurement)
    ensures t.reading.charge == JNum(-1.0) && t.heating.targetCharge == JNum(0.0)
    ensures t.schedule == JNull && t.callbacks == {} && !t.channel.shouldConnect
  {
    Tank(
      Upper(serial),
      Lower(serial),
      JStr(""),
      Links(JStr(""), JStr(""), JStr(""), JStr("")),
      Device(JStr(""), JStr(""), JStr("0.0.0"), false),
      Reading(JNum(-1.0), JNum(-1.0), PvZero, JNum(0.0), JNum(-1.0)),
      Heating(JNum(0.0), false, false, false, false),
      Settings(
        JNum(-1.0), JBool(false), JBool(false), JBool(false), JBool(false), JNum(0.0),
        JBool(false), JNum(0.0), JNum(0.0), JNum(0.0), JNum(0.0)),
      JNull,
      {},
      Connection.Initial)
  }
}
